=== FILE: README.md ===
# VRT NU favorites store and video metadata, modelled in Dafny

This project models two parts of the Kodi add-on for VRT NU.

**Favorites store.** The `Favorites` class keeps the user's followed
programs. It reads them from a local cache or from the VRT user-data
service. It writes a change with a POST, keeps its own copy of the
document up to date, and invalidates the caches that depend on it. The
model covers:
- the refresh (`get_favorites`) and the write (`set_favorite`);
- `follow` and `unfollow`;
- the lookups `is_favorite`, `uuid`, `name`, `names` and `titles`;
- `invalidate_caches`.

The constructor's empty dict is `Favorites.Initial`. `is_activated`
(`favorites.py` lines 28-30) is the predicate `Favorites.IsActivated`:
the `usefavorites` setting is `"true"` and credentials are configured.
`GetFavorites` is gated on it.

The store's state is the snapshot `_favorites`. It is either `None` or a
dict. A dict is modelled as its keys in insertion order plus a map from
key to entry, so the order of `names()` and `titles()` is the iteration
order of Python 3.7 and later. Calls to collaborators are data:
- the settings, the cache answers, the token, the fetched document and
  the HTTP status are inputs (`RefreshEnv`, `WriteEnv`);
- every call returns the effects it makes, in order, as a trace
  (`ReadCache`, `RequestToken`, `Get`, `WriteCache`, `Post`,
  `Invalidate`, `Notify`, `RefreshContainer`).

Python's `str.replace`, `str.split`, `sep.join` and `str.strip` are
modelled in module `Text`, together with their laws.

**Video metadata.** `MetadataCreator` holds the attributes of one video
item. Module `MetadataCreator` models:
- the constructor, whose attributes all start as `None`, as the empty record `Empty`;
- each attribute setter, as a `Setting` applied by `Assign`;
- `get_video_dict`, as `VideoDict`.

`VideoDict` builds the Kodi info-label dict step by step, in the
source's order. `Describe` says the same thing key by key. The
contract of `VideoDict` is that the two are equal for every record.
The module `MetadataProperties` proves properties of the dict and the
setters from that.

Modules:
- `Wrappers`: `Option` and `Result`.
- `Text`: the string operations.
- `Favorites`: the store.
- `FavoritesProperties`: laws relating several calls.
- `MetadataCreator`: the record, the setters and the dict.
- `MetadataProperties`: laws of the setters and the dict.

Points of this version of the code worth knowing:
- Favorites are keyed by `uuid(path)`, the program path with every `/`
  and `-` removed, unlike a later, slug-keyed version of the add-on
  that adds a namespace prefix. Ids can collide:
  `FavoritesProperties.UuidNotInjective` exhibits two paths with one id.
- `set_favorite` refreshes with a time-to-live of `60 * 60` seconds.
- The POST payload is `{isFavorite, programUrl: path, title: program}`.
- Refresh without a token: when the cache misses and there is no token,
  the refresh does not keep the old snapshot. It replaces it with what
  the cache returned, `None` or an empty dict.
- A write without a token leaves `is_favorite` as the refresh left it
  (`FailedWriteChangesNothing`). It is as before the call only for an
  inactive store (`NoTokenKeepsFavorite`), because an active store's
  refresh may already replace the snapshot.
- The refresh tests the token for truthiness, so an empty token counts
  as none. The write tests `is None`, so an empty token still posts.
- `set_favorite` is not gated on activation; `get_favorites` is.

## Model

| member | source | states |
|---|---|---|
| Favorites.GetFavorites | resources/lib/favorites.py:32-55 | Does nothing when favorites are not activated. Otherwise reads `favorites.json` with the given ttl first. A truthy cached dict is used without a token request or network access. With no (or an empty) token, the cache-miss value becomes the snapshot and no GET is made (the token is still requested). A fetched document becomes the snapshot and is written through to the cache. A failed fetch falls back to the cache read with `ttl=None`. It never posts or invalidates. |
| FavoritesProperties.RefreshReplacesSnapshot | resources/lib/favorites.py:32-55 | Once activated, the snapshot and the effects of a refresh do not depend on the previous snapshot: line 55 always overwrites it. |
| FavoritesProperties.RefreshWritesOnlyFetched | resources/lib/favorites.py:48-54 | The refresh writes the favorites cache only with a document it has just fetched, and that document is then the snapshot. |
| Favorites.InvalidateCaches | resources/lib/favorites.py:134-139 | Invalidates exactly the two dependent families `my-offline-*.json` and `my-recent-*.json`, never `favorites.json`. |
| Favorites.Upsert | resources/lib/favorites.py:87 | Dict item assignment: the key maps to the new entry and every other key is unchanged. The key set gains the key. An existing key keeps its position; a new key is appended to the insertion order. |
| Favorites.Commit | resources/lib/favorites.py:66-90 | The write protocol after the early return. With no token: a failure notification and no POST. Otherwise a POST of `{isFavorite, programUrl, title}` to the favorites endpoint under `uuid(path)`, succeeding exactly on status 200. On failure the dict is unchanged, no cache is touched and a notification is last. On success exactly one entry is upserted, then written through, then the two dependent families are invalidated. |
| Favorites.SetFavorite | resources/lib/favorites.py:57-90 | Refreshes with ttl `60 * 60` first. Raises when the refresh leaves no dict. Returns true with no effect beyond the refresh when the flag already has the requested value. Otherwise the write protocol decides, starting from the refreshed dict. |
| Favorites.SetFavoriteReachesValue | resources/lib/favorites.py:57-90 | When `set_favorite` returns, `is_favorite` is defined afterwards. It returns true exactly when the flag now has the requested value. A false return ends with a notification. |
| FavoritesProperties.FailedWriteChangesNothing | resources/lib/favorites.py:66-85 | A false return means there was no token or the status was not 200. The snapshot is the refreshed one and `is_favorite` is unchanged from it. No cache is written or invalidated after the refresh. |
| FavoritesProperties.NoTokenKeepsFavorite | resources/lib/favorites.py:57-70 | For an inactive store with no token: the snapshot and `is_favorite` are exactly as before the call, nothing is posted and no cache changes. |
| FavoritesProperties.WriteUpsertsOneEntry | resources/lib/favorites.py:72-90 | A write that gets status 200 returns true. Exactly the entry `uuid(path)` becomes `{value: payload}`, and every other entry is as the refresh left it. The trace after the refresh is token request, POST, cache write of the whole dict, and the two invalidations. |
| FavoritesProperties.InactiveStoreStillWrites | resources/lib/favorites.py:57-81 | `set_favorite` does not check activation: an inactive store with a token still posts when the flag differs. |
| FavoritesProperties.FollowTwicePostsOnce | resources/lib/favorites.py:57-64 | Suppose the second `set_favorite` sees what the first one left: the store is inactive, or the cache returns the written-through dict. Then the second call returns true with no POST and no cache change. |
| Favorites.Toggle | resources/lib/favorites.py:100-112 | Fails exactly when `set_favorite` fails, and keeps its snapshot and its effects as a prefix. When `set_favorite` returns true, exactly the notification `Follow <program>` or `Unfollow <program>` and then a container refresh are added; when it returns false nothing is added. On return, `is_favorite` is defined, and the effects end with a container refresh exactly when the flag now has the requested value. |
| Favorites.Follow | resources/lib/favorites.py:100-105 | The snapshot is the one `set_favorite(program, path, True)` leaves. When that returns true, its effects are followed by the notification `Follow <program>` and a container refresh. On return, the program is a favorite exactly when the container was refreshed. |
| Favorites.Unfollow | resources/lib/favorites.py:107-112 | The snapshot is the one `set_favorite(program, path, False)` leaves. When that returns true, its effects are followed by the notification `Unfollow <program>` and a container refresh. On return, the program is not a favorite exactly when the container was refreshed. |
| FavoritesProperties.UnfollowLeavesTombstone | resources/lib/favorites.py:107-112 | When the write succeeds (a token and status 200), unfollowing a followed program keeps its id in the dict with `isFavorite` false (a tombstone). The id drops out of the followed listing, and the container is refreshed. |
| FavoritesProperties.FollowLists | resources/lib/favorites.py:100-105 | When the write succeeds (a token and status 200), following a program that was not followed puts its id in the followed listing. Whether any other id is listed does not change. |
| FavoritesProperties.InactiveToggleFlips | resources/lib/favorites.py:57-112 | On a store that does not refresh, a follow or unfollow whose write succeeds flips `is_favorite` to the requested value. Its whole trace is the token request, exactly one POST of the payload, the write-through, the two invalidations, the `Follow`/`Unfollow` notification and the container refresh. |
| FavoritesProperties.FollowUnfollowFollow | resources/lib/favorites.py:19-112 | From the constructed store, which does not refresh and whose writes succeed, follow, unfollow and follow again leave `is_favorite` true, false and true. Each call posts and refreshes the container, and the program is listed at the end. |
| Favorites.IsFavorite | resources/lib/favorites.py:92-98 | Raises on a `None` snapshot. False for a missing id. Otherwise the entry's `isFavorite`, where a missing `value` or flag counts as false. |
| FavoritesProperties.ListedExactlyWhenFavorite | resources/lib/favorites.py:92-132 | An id is among the followed entries that `names()` and `titles()` list exactly when `is_favorite` is true for it. |
| Favorites.Uuid | resources/lib/favorites.py:114-116 | An id never contains `/` or `-`. |
| FavoritesProperties.UuidAppend | resources/lib/favorites.py:114-116 | `uuid` works character by character: the id of a concatenation is the concatenation of the ids. |
| FavoritesProperties.UuidSingle | resources/lib/favorites.py:114-116 | On one character, `uuid` drops `/` and `-` and keeps anything else. |
| FavoritesProperties.UuidIdempotent | resources/lib/favorites.py:114-116 | An id is its own id. |
| FavoritesProperties.UuidPlain | resources/lib/favorites.py:114-116 | A text without `/` and `-` is its own id. |
| FavoritesProperties.UuidNotInjective | resources/lib/favorites.py:114-116 | Two different paths (`a-b`, `ab`) have the same id. |
| Text.DeleteAbsent | resources/lib/favorites.py:116 | Removing a character that does not occur changes nothing. |
| Favorites.Name | resources/lib/favorites.py:118-124 | A name never contains `/`. The name is the path itself exactly when the path has no `/`, which is the `IndexError` fallback. |
| Favorites.RelevantKeepsSlashes | resources/lib/favorites.py:121 | Rewriting `.relevant/` to `/` keeps the number of `/`. |
| FavoritesProperties.NameIsPiece | resources/lib/favorites.py:118-124 | With a `/` in the path, the split has at least two pieces and the name is the second-to-last, so no `IndexError` arises. |
| FavoritesProperties.NameIsSecondToLastPiece | resources/lib/favorites.py:118-124 | With a `/` in the path, the rewritten path is a prefix that is empty or ends in `/`, then the name, then `/`, then a last piece without `/`. |
| Favorites.FollowedEntries | resources/lib/favorites.py:126-132 | The entries that `names()` and `titles()` iterate over: never more than the dict has. Each has `isFavorite` true and occurs in the dict as `(id, {value: record})`. |
| FavoritesProperties.FollowedIdsExactly | resources/lib/favorites.py:126-132 | An id is listed exactly when some entry with that id is followed. |
| FavoritesProperties.FollowedIdsComplete | resources/lib/favorites.py:126-132 | Every followed entry is listed. |
| Favorites.TitlesOf | resources/lib/favorites.py:130-132 | Succeeds exactly when every entry has a `value`. Then it lists the title of every followed entry, in order. |
| Favorites.Titles | resources/lib/favorites.py:130-132 | `titles()` raises on a `None` snapshot. On a dict it succeeds exactly when every entry has a `value`, and then lists the title of every followed entry in the dict's iteration order, which is insertion order on Python 3.7 and later. |
| Favorites.NamesOf | resources/lib/favorites.py:126-128 | Succeeds exactly when every entry has a `value` and every followed one has a `programUrl`. Then it lists `name(programUrl)` of every followed entry, in order. |
| Favorites.Names | resources/lib/favorites.py:126-128 | `names()` raises on a `None` snapshot. On a dict it succeeds exactly when every entry has a `value` and every followed one has a `programUrl`, and then lists `name(programUrl)` of every followed entry in the dict's iteration order, which is insertion order on Python 3.7 and later. |
| Text.ReplaceKeepsCount | resources/lib/favorites.py:121 | Replacing a pattern by a text with as many `c` keeps the number of `c`. |
| Text.DeleteMembership | resources/lib/favorites.py:116 | `s.replace(c, '')` keeps exactly the characters of `s` other than `c`. |
| Text.DeleteAppend | resources/lib/favorites.py:116 | `s.replace(c, '')` distributes over concatenation. |
| Text.SplitLength | resources/lib/favorites.py:121 | `split` gives one piece more than there are separators. |
| Text.SplitPiecesFree | resources/lib/favorites.py:121 | No piece of a split holds the separator. |
| Text.JoinSplit | resources/lib/favorites.py:121 | Joining the pieces of a split with the same separator gives the text back. |
| Text.SplitJoin | resources/lib/favorites.py:121 | Splitting a join of separator-free pieces gives the pieces back. |
| Text.StripEnds | resources/lib/vrtplayer/metadatacreator.py:137-147 | A stripped text is empty or neither starts nor ends with whitespace. |
| Text.StripIsTrimmedSlice | resources/lib/vrtplayer/metadatacreator.py:137-147 | `strip()` returns a slice of its input, and everything it cuts off on either side is whitespace. |
| Text.StripTrimmed | resources/lib/vrtplayer/metadatacreator.py:137-147 | A text without surrounding whitespace is its own strip. |
| Text.StripIdempotent | resources/lib/vrtplayer/metadatacreator.py:137-147 | Stripping twice is stripping once. |
| Text.StripAllSpace | resources/lib/vrtplayer/metadatacreator.py:137-147 | A text made only of whitespace strips to the empty text. |
| MetadataCreator.Assign | resources/lib/vrtplayer/metadatacreator.py:37-203 | A setter stores its attribute's value and leaves every other attribute, set or unset, as it was. |
| MetadataProperties.EmptyTyped | resources/lib/vrtplayer/metadatacreator.py:14-35 | The record as constructed is well typed, and every attribute reads as `None`: none is truthy, shown or dated. |
| MetadataProperties.AssignKeepsTyped | resources/lib/vrtplayer/metadatacreator.py:37-203 | Every setter keeps a well-typed record well typed: each attribute holds a value of its own kind. |
| MetadataProperties.StoredFits | resources/lib/vrtplayer/metadatacreator.py:37-203 | Every setter stores a value of its attribute's kind. |
| MetadataProperties.AssignOverwrites | resources/lib/vrtplayer/metadatacreator.py:37-203 | Setting an attribute twice keeps only the second value. |
| MetadataProperties.AssignCommutes | resources/lib/vrtplayer/metadatacreator.py:37-203 | Setters of different attributes can be applied in either order. |
| MetadataProperties.SettersStoreAsGiven | resources/lib/vrtplayer/metadatacreator.py:37-203 | Every setter but `plot` and `plotoutline` stores exactly the value handed to it. |
| MetadataProperties.PlotStored | resources/lib/vrtplayer/metadatacreator.py:137-147 | The `plot` and `plotoutline` setters store the value stripped of surrounding whitespace. |
| MetadataProperties.PlotSetterIdempotent | resources/lib/vrtplayer/metadatacreator.py:137-147 | Handing these setters an already stripped value stores the same record. |
| MetadataProperties.StoredPlotTrimmed | resources/lib/vrtplayer/metadatacreator.py:137-139 | A stored plot never has surrounding whitespace, whatever was given. |
| MetadataCreator.VideoDict | resources/lib/vrtplayer/metadatacreator.py:205-294 | The dict built in the source's order of `if` statements is, for every record, the key-by-key description `Describe`. |
| MetadataCreator.ChannelStudio | resources/lib/vrtplayer/metadatacreator.py:210 | The studio of a brand: `VRT` for a brand missing from the channel table, that channel's studio otherwise, and `None` for a channel without a studio. |
| MetadataProperties.StudioAlwaysPresent | resources/lib/vrtplayer/metadatacreator.py:209-212 | `studio` is always present. It is `VRT` without brands or for an unknown first brand, that channel's studio otherwise, and `None` for a channel without one. |
| MetadataProperties.OverlayAlwaysThree | resources/lib/vrtplayer/metadatacreator.py:245-250 | `overlay` is 3, geolocked or not. |
| MetadataProperties.DatePrecedence | resources/lib/vrtplayer/metadatacreator.py:214-226 | `aired` and `date` come from `datetime` when set, else from a non-epoch `ontime`. `dateadded` prefers a non-epoch `ontime` over `datetime`. With neither, all three keys are absent. |
| MetadataProperties.PairedKeys | resources/lib/vrtplayer/metadatacreator.py:241-286 | `genre`/`tag`, `icon`/`actualicon` and `tvshowtitle`/`set` always agree. `path` holds the permalink exactly when `showlink` holds the one-element list of it. |
| MetadataProperties.TaglinePrecedence | resources/lib/vrtplayer/metadatacreator.py:267-279 | `tagline` is a non-empty `subtitle`, else a non-empty `plotoutline`, else absent. `plotoutline` is present exactly when non-empty. |
| MetadataProperties.ZeroCountsOmitted | resources/lib/vrtplayer/metadatacreator.py:235-292 | `duration`, `episode`, `rating`, `season` and `year` are present exactly when the attribute is set and non-zero. |
| MetadataProperties.EmptyRecordDict | resources/lib/vrtplayer/metadatacreator.py:205-294 | A fresh record's dict has `studio` `VRT` and `overlay` 3 and nothing else. |
| MetadataProperties.PlotKey | resources/lib/vrtplayer/metadatacreator.py:264-265 | The `plot` key holds the stored plot text, and is absent exactly when that text is empty. |
| MetadataProperties.PlotShownStripped | resources/lib/vrtplayer/metadatacreator.py:137-139 | After the `plot` setter, the `plot` key is the stripped text. It is absent exactly when stripping leaves nothing. |
| MetadataProperties.BlankPlotOmitted | resources/lib/vrtplayer/metadatacreator.py:137-139 | A whitespace-only plot is left out of the dict. |
| MetadataProperties.DescribeReadsOnlyUsed | resources/lib/vrtplayer/metadatacreator.py:205-294 | Two records that agree on every attribute except `geolocked`, `offtime` and `pageid` have the same key-by-key description. |
| MetadataProperties.DictReadsOnlyUsed | resources/lib/vrtplayer/metadatacreator.py:205-294 | Two records that agree on every attribute except `geolocked`, `offtime` and `pageid` produce the same dict. |
| MetadataProperties.UnusedAttributes | resources/lib/vrtplayer/metadatacreator.py:228-250 | Setting `geolocked`, `offtime` or `pageid` never changes the dict: the overlay is 3 either way, and the `offtime` lines are commented out. |

## Left out

- Favorites.IsFavorite: the document is assumed to have the service's shape: `isFavorite` is a boolean and no value is JSON `null`. An `Option` field means a missing key, so the model cannot represent `null`. For that reason the `value is self.is_favorite(path)` test of favorites.py line 62 is modelled as equality of booleans. Two source behaviours are therefore not modelled. An entry `{"value": null}` makes `is_favorite` raise `AttributeError` in the source, where the model answers false. A non-boolean flag such as `null` or `1` fails the `is` test for both values, so the source then posts even when unfollowing.
- Favorites.Names: the model fixes the order as dict insertion order, which is Python 3.7 and later. On Python 2, which the module still supports through its `urllib2` import, and on earlier Python 3, `dict.values()` has no fixed order.
- Favorites.Titles: the same as for `names()`; the order is Python 3.7 and later dict order.
- Text.IsSpace: the whitespace set is the one Python 3's `str.strip()` removes. On Python 2 a byte string strips only ASCII whitespace, and that set is not modelled.

- HTTP transport: request headers (`authorization`, `content-type`, `Referer`), the proxy opener and `urlopen` are not modelled. The GET succeeds or fails, and the POST yields a status code, as inputs.
- A POST that raises (an `HTTPError`, a network failure) is not modelled. Only the status code decides the outcome, which is the only failure path the code handles.
- JSON encoding and decoding are not modelled. The fetched document arrives already decoded, and the payload is a record.
- Logging (`log_notice`, `log_error`) is not modelled. Notifications are effects in the trace.
- The cache's time-to-live policy is not modelled. What `get_cache` answers for each ttl is an input.
- `datetime` values are modelled as `Moment`: the two `strftime` renderings the dict uses, and whether the value equals the UTC epoch. Date arithmetic and time zones are not modelled.
- Score, duration and the other numbers are integers. A float score is not modelled. Its zero test decides whether `rating` is present.
- The dict is a record with one optional field per key. The key `set` is the field `movieset`, and the insertion order of the Python dict is not modelled.
- Setters receiving `None` or a value of the wrong type are not modelled. In particular, `plot = None` raises in the source.
- The channel table `CHANNELS` is an input map from brand to optional studio. Only the `studio` entry is read.
- The callers (`vrtplayer`, `addon`, `iptvmanager`) are not part of this model. This version of favorites.py has no `manage()`.
- The process-wide `install_opener` call in the constructor is not modelled.

=== FILE: favorites.dfy ===
/**
 The favorites store of the add-on: an in-memory copy of the user's followed
 programs, refreshed from a key/value cache or from the remote favorites
 service, and updated by follow/unfollow writes.

 Every operation is a pure function of the current snapshot and of the
 answers of its collaborators (settings, cache reads, token provider, HTTP
 status); it returns the new snapshot together with the trace of effects it
 performed, in order.
 */
module Favorites {
  import opened Wrappers
  import opened Text

  /** Cache key of the persisted favorites document. */
  const FavoritesCache: string := "favorites.json"
  /** Cache globs of the listings that embed favorites. */
  const OfflineCaches: string := "my-offline-*.json"
  const RecentCaches: string := "my-recent-*.json"
  /** Remote favorites endpoint; a single favorite lives at `FavoritesEndpoint + "/" + id`. */
  const FavoritesEndpoint: string := "https://video-user-data.vrt.be/favorites"
  /** Token variant requested from the token resolver. */
  const UserVariant: string := "user"
  /** Cache time-to-live, in seconds, of the refresh that precedes a write. */
  const WriteTtl: nat := 60 * 60
  const TokenFailure: string := "Failed to get favorites roken from VRT NU"

  function WriteFailure(path: string): string {
    "Failed to (un)follow program '" + path + "' at VRT NU"
  }

  /** The exception Python raises when an attribute is looked up on `None`. */
  datatype PyError = AttributeError(attribute: string)

  /** The add-on settings favorites depend on. */
  datatype Settings = Settings(usefavorites: string, hasCredentials: bool)

  /** `is_activated()`: the favorites setting is on and credentials are configured. */
  predicate IsActivated(s: Settings) {
    s.usefavorites == "true" && s.hasCredentials
  }

  /** The `value` object of a favorite: each key of the JSON object may be missing. */
  datatype Record = Record(isFavorite: Option<bool>, programUrl: Option<string>, title: Option<string>)

  /** One favorite as stored under its id: `{value: Record}`, where `value` may be missing. */
  datatype Entry = Entry(value: Option<Record>)

  /** Whether an entry is followed, as `p.get('value').get('isFavorite')` tests it. */
  predicate Followed(e: Entry) {
    e.value.Some? && e.value.value.isFavorite == Some(true)
  }

  /**
   A favorites document, a Python dict from favorite id to entry: the ids in
   insertion order, and the entry of each id.
   */
  datatype Document = Document(order: seq<string>, entries: map<string, Entry>)

  predicate WellOrdered(d: Document) {
    && (forall i, j :: 0 <= i < j < |d.order| ==> d.order[i] != d.order[j])
    && (forall k :: k in d.entries ==> k in d.order)
    && (forall i :: 0 <= i < |d.order| ==> d.order[i] in d.entries)
  }

  type Doc = d: Document | WellOrdered(d) witness Document([], map[])

  /** The store's `_favorites`: a dict, or `None` once a refresh found nothing. */
  type Snapshot = Option<Doc>

  /** A document is truthy when it is a non-empty dict. */
  predicate Truthy(c: Option<Doc>) {
    c.Some? && |c.value.order| > 0
  }

  /** `d.get(k)`. */
  function Lookup(d: Doc, k: string): Option<Entry> {
    if k in d.entries then Some(d.entries[k]) else None
  }

  /** `d.items()`, in insertion order. */
  function Items(d: Doc): (r: seq<(string, Entry)>)
    ensures |r| == |d.order|
    ensures forall i :: 0 <= i < |r| ==> r[i].0 == d.order[i] && r[i].0 in d.entries && r[i].1 == d.entries[r[i].0]
  {
    seq(|d.order|, i requires 0 <= i < |d.order| => (d.order[i], d.entries[d.order[i]]))
  }

  /**
   `d[k] = e` on a Python dict: an existing key keeps its position and gets the
   new value, a new key is appended; nothing else changes.
   */
  function Upsert(d: Doc, k: string, e: Entry): (r: Doc)
    ensures Lookup(r, k) == Some(e)
    ensures forall k' :: k' != k ==> Lookup(r, k') == Lookup(d, k')
    ensures r.entries.Keys == d.entries.Keys + {k}
    ensures k in d.entries ==> r.order == d.order
    ensures k !in d.entries ==> r.order == d.order + [k]
  {
    var order := if k in d.entries then d.order else d.order + [k];
    var r := Document(order, d.entries[k := e]);
    assert WellOrdered(r) by {
      if k !in d.entries {
        forall i, j | 0 <= i < j < |order| ensures order[i] != order[j] {
          if j == |d.order| {
            assert order[i] == d.order[i];
            assert d.order[i] in d.order;
          }
        }
      }
    }
    r
  }

  /** Python's `path.replace('/', '').replace('-', '')`: the favorite id of a program path. */
  function Uuid(path: string): (id: string)
    ensures '/' !in id && '-' !in id
  {
    DeleteMembership(path, '/', '/');
    DeleteMembership(Replace(path, "/", ""), '-', '/');
    DeleteMembership(Replace(path, "/", ""), '-', '-');
    Replace(Replace(path, "/", ""), "-", "")
  }

  /**
   The program name of a path: after rewriting `.relevant/` to `/`, the
   second-to-last `/`-separated piece; a path without `/` is its own name
   (the `IndexError` fallback).
   */
  function Name(path: string): (r: string)
    ensures '/' !in r
    ensures r == path <==> '/' !in path
  {
    var t := Replace(path, ".relevant/", "/");
    RelevantKeepsSlashes(path);
    SplitLength(t, '/');
    SplitPiecesFree(t, '/');
    var parts := Split(t, '/');
    if |parts| >= 2 then parts[|parts| - 2] else path
  }

  /** Rewriting `.relevant/` to `/` keeps the number of `/`. */
  lemma RelevantKeepsSlashes(path: string)
    ensures Count(Replace(path, ".relevant/", "/"), '/') == Count(path, '/')
  {
    RelevantSlashes();
    ReplaceKeepsCount(path, ".relevant/", "/", '/');
  }

  /** `.relevant/` and its replacement `/` hold one `/` each. */
  lemma RelevantSlashes()
    ensures Count(".relevant/", '/') == 1 && Count("/", '/') == 1
  {
  }

  /** `is_favorite(path)`: the `isFavorite` flag of the favorite with id `uuid(path)`, false when missing. */
  function IsFavorite(s: Snapshot, path: string): (r: Result<bool, PyError>)
    ensures r.Failure? <==> s.None?
    ensures s.Some? && Uuid(path) !in s.value.entries ==> r == Success(false)
    ensures s.Some? && Uuid(path) in s.value.entries ==> r == Success(Followed(s.value.entries[Uuid(path)]))
  {
    match s
    case None => Failure(AttributeError("get"))
    case Some(d) =>
      match Lookup(d, Uuid(path))
      case None => Success(false)
      case Some(favorite) =>
        var value := favorite.value.GetOr(Record(Some(false), None, None));
        assert value.isFavorite.GetOr(false) == Followed(favorite);
        Success(value.isFavorite.GetOr(false))
  }

  /** The effects the store has on its collaborators, in the order they happen. */
  datatype Effect =
    | ReadCache(key: string, ttl: Option<nat>)
    | RequestToken(variant: string)
    | Get(url: string)
    | WriteCache(key: string, doc: Doc)
    | Post(url: string, payload: Record)
    | Invalidate(pattern: string)
    | Notify(message: string)
    | RefreshContainer

  /** Whether the effect changes a cache. */
  predicate CacheChange(e: Effect) {
    e.WriteCache? || e.Invalidate?
  }

  /** Outcome of the GET of the favorites document: a decoded document, or any exception. */
  datatype Fetch = Fetched(doc: Doc) | FetchFailed

  /** What the collaborators answer during one `get_favorites`. */
  datatype RefreshEnv = RefreshEnv(
    settings: Settings,
    cached: Option<Doc>,     // get_cache('favorites.json', ttl)
    token: Option<string>,   // get_xvrttoken(token_variant='user')
    fetch: Fetch,            // json.load(urlopen(...))
    stale: Option<Doc>)      // get_cache('favorites.json', ttl=None)

  datatype Refreshed = Refreshed(snapshot: Snapshot, trace: seq<Effect>)

  /** `get_favorites(ttl)`. */
  function GetFavorites(s: Snapshot, ttl: Option<nat>, env: RefreshEnv): (r: Refreshed)
    // inactive: nothing happens
    ensures !IsActivated(env.settings) ==> r == Refreshed(s, [])
    // active: the cache is consulted first, with the given time-to-live
    ensures IsActivated(env.settings) ==> |r.trace| >= 1 && r.trace[0] == ReadCache(FavoritesCache, ttl)
    // a truthy cached document is used as is, without token or network
    ensures IsActivated(env.settings) && Truthy(env.cached) ==>
              r.snapshot == env.cached && r.trace == [ReadCache(FavoritesCache, ttl)]
    // no (or an empty) token: the cache-miss value becomes the snapshot, no request is made
    ensures IsActivated(env.settings) && !Truthy(env.cached) && (env.token.None? || env.token.value == "") ==>
              r.snapshot == env.cached && r.trace == [ReadCache(FavoritesCache, ttl), RequestToken(UserVariant)]
    // a fetched document becomes the snapshot and is written through to the cache
    ensures IsActivated(env.settings) && !Truthy(env.cached) && env.token.Some? && env.token.value != "" ==>
              && |r.trace| >= 3
              && r.trace[..3] == [ReadCache(FavoritesCache, ttl), RequestToken(UserVariant), Get(FavoritesEndpoint)]
              && (env.fetch.Fetched? ==> r.snapshot == Some(env.fetch.doc) && r.trace[3..] == [WriteCache(FavoritesCache, env.fetch.doc)])
              && (env.fetch.FetchFailed? ==> r.snapshot == env.stale && r.trace[3..] == [ReadCache(FavoritesCache, None)])
    // only a refresh never posts nor invalidates
    ensures forall i :: 0 <= i < |r.trace| ==> !r.trace[i].Post? && !r.trace[i].Invalidate?
  {
    if !IsActivated(env.settings) then Refreshed(s, [])
    else
      var read := [ReadCache(FavoritesCache, ttl)];
      if Truthy(env.cached) then Refreshed(env.cached, read)
      else
        var asked := read + [RequestToken(UserVariant)];
        if env.token.None? || env.token.value == "" then Refreshed(env.cached, asked)
        else
          var fetched := asked + [Get(FavoritesEndpoint)];
          match env.fetch
          case Fetched(doc) => Refreshed(Some(doc), fetched + [WriteCache(FavoritesCache, doc)])
          case FetchFailed => Refreshed(env.stale, fetched + [ReadCache(FavoritesCache, None)])
  }

  /** What the collaborators answer during one `set_favorite`. */
  datatype WriteEnv = WriteEnv(
    refresh: RefreshEnv,     // the answers during the preceding get_favorites(ttl=60*60)
    token: Option<string>,   // get_xvrttoken(token_variant='user') for the write
    status: int)             // HTTP status of the POST

  /** The result of a call: the new snapshot, the effects, and the returned value or raised exception. */
  datatype Call<T> = Call(snapshot: Snapshot, trace: seq<Effect>, outcome: Result<T, PyError>)

  /** The payload posted for a program, and stored as its `value`. */
  function Payload(program: string, path: string, value: bool): Record {
    Record(Some(value), Some(path), Some(program))
  }

  /** `invalidate_caches()`: the dependent listings, never the favorites document itself. */
  function InvalidateCaches(): (r: seq<Effect>)
    ensures |r| == 2 && Invalidate(OfflineCaches) in r && Invalidate(RecentCaches) in r
    ensures forall i :: 0 <= i < |r| ==> r[i].Invalidate? && r[i].pattern != FavoritesCache
  {
    [Invalidate(OfflineCaches), Invalidate(RecentCaches)]
  }

  /** What the write protocol of `set_favorite` leaves behind, once a change is needed. */
  datatype Committed = Committed(doc: Doc, effects: seq<Effect>, ok: bool)

  /**
   The write part of `set_favorite(program, path, value)`, from the token
   request on, applied to the refreshed document `d`.
   */
  function Commit(d: Doc, program: string, path: string, value: bool, token: Option<string>, status: int): (r: Committed)
    ensures |r.effects| >= 2 && r.effects[0] == RequestToken(UserVariant)
    ensures r.ok <==> token.Some? && status == 200
    // no token: nothing is posted
    ensures token.None? ==> r.effects == [RequestToken(UserVariant), Notify(TokenFailure)]
    // a token: the payload goes to the program's own url
    ensures token.Some? ==> r.effects[1] == Post(FavoritesEndpoint + "/" + Uuid(path), Payload(program, path, value))
    // failure: the document is unchanged, no cache is touched, the user is told
    ensures !r.ok ==>
              && r.doc == d
              && (forall i :: 0 <= i < |r.effects| ==> !CacheChange(r.effects[i]))
              && r.effects[|r.effects| - 1].Notify?
    // success: exactly one entry upserted, written through, dependents invalidated
    ensures r.ok ==>
              && Lookup(r.doc, Uuid(path)) == Some(Entry(Some(Payload(program, path, value))))
              && r.doc.entries.Keys == d.entries.Keys + {Uuid(path)}
              && (forall k :: k != Uuid(path) ==> Lookup(r.doc, k) == Lookup(d, k))
              && r.effects[2..] == [WriteCache(FavoritesCache, r.doc), Invalidate(OfflineCaches), Invalidate(RecentCaches)]
  {
    var asked := [RequestToken(UserVariant)];
    if token.None? then Committed(d, asked + [Notify(TokenFailure)], false)
    else
      var payload := Payload(program, path, value);
      var posted := asked + [Post(FavoritesEndpoint + "/" + Uuid(path), payload)];
      if status != 200 then Committed(d, posted + [Notify(WriteFailure(path))], false)
      else
        var updated := Upsert(d, Uuid(path), Entry(Some(payload)));
        Committed(updated, posted + [WriteCache(FavoritesCache, updated)] + InvalidateCaches(), true)
  }

  /** `set_favorite(program, path, value)`: refresh with a one hour time-to-live, then write if needed. */
  function SetFavorite(s: Snapshot, program: string, path: string, value: bool, env: WriteEnv): (r: Call<bool>)
    ensures var pre := GetFavorites(s, Some(WriteTtl), env.refresh);
            pre.trace <= r.trace
    // the refresh left no dict: is_favorite raises
    ensures var pre := GetFavorites(s, Some(WriteTtl), env.refresh);
            pre.snapshot.None? ==> r == Call(pre.snapshot, pre.trace, Failure(AttributeError("get")))
    // already in the requested state: success, and nothing beyond the refresh
    ensures var pre := GetFavorites(s, Some(WriteTtl), env.refresh);
            IsFavorite(pre.snapshot, path) == Success(value) ==> r == Call(pre.snapshot, pre.trace, Success(true))
    // otherwise the write protocol decides, after the refresh
    ensures var pre := GetFavorites(s, Some(WriteTtl), env.refresh);
            IsFavorite(pre.snapshot, path) == Success(!value) ==>
              && pre.snapshot.Some?
              && var c := Commit(pre.snapshot.value, program, path, value, env.token, env.status);
                 r == Call(Some(c.doc), pre.trace + c.effects, Success(c.ok))
  {
    var pre := GetFavorites(s, Some(WriteTtl), env.refresh);
    match IsFavorite(pre.snapshot, path)
    case Failure(e) => Call(pre.snapshot, pre.trace, Failure(e))
    case Success(current) =>
      if value == current then Call(pre.snapshot, pre.trace, Success(true))
      else
        var c := Commit(pre.snapshot.value, program, path, value, env.token, env.status);
        Call(Some(c.doc), pre.trace + c.effects, Success(c.ok))
  }

  /** Whether the last effect of a trace is a container refresh, which only a successful follow/unfollow ends with. */
  predicate EndsWithRefresh(t: seq<Effect>) {
    |t| > 0 && t[|t| - 1] == RefreshContainer
  }

  /** `follow` and `unfollow`: `set_favorite`, then a notification and a container refresh on success. */
  function Toggle(s: Snapshot, program: string, path: string, value: bool, env: WriteEnv): (r: Call<()>)
    ensures r.outcome.Failure? <==> SetFavorite(s, program, path, value, env).outcome.Failure?
    ensures r.outcome.Success? ==>
              IsFavorite(r.snapshot, path).Success? && (IsFavorite(r.snapshot, path).value == value <==> EndsWithRefresh(r.trace))
    // the write is kept: the snapshot and the effects of set_favorite come first
    ensures var c := SetFavorite(s, program, path, value, env);
            && r.snapshot == c.snapshot
            && c.trace <= r.trace
            && (r.outcome.Success? ==> (EndsWithRefresh(r.trace) <==> c.outcome == Success(true)))
    // a true return adds the notification and then the container refresh, nothing else
    ensures var c := SetFavorite(s, program, path, value, env);
            c.outcome == Success(true) ==>
              r.trace[|c.trace|..] == [Notify((if value then "Follow " else "Unfollow ") + program), RefreshContainer]
    ensures var c := SetFavorite(s, program, path, value, env);
            c.outcome.Success? && !c.outcome.value ==> r.trace == c.trace
  {
    var c := SetFavorite(s, program, path, value, env);
    SetFavoriteReachesValue(s, program, path, value, env);
    match c.outcome
    case Failure(e) => Call(c.snapshot, c.trace, Failure(e))
    case Success(ok) =>
      var message := (if value then "Follow " else "Unfollow ") + program;
      Call(c.snapshot, c.trace + (if ok then [Notify(message), RefreshContainer] else []), Success(()))
  }

  /** A returned `set_favorite` leaves the flag at the requested value exactly when it returns true. */
  lemma SetFavoriteReachesValue(s: Snapshot, program: string, path: string, value: bool, env: WriteEnv)
    ensures var r := SetFavorite(s, program, path, value, env);
            r.outcome.Success? ==>
              && IsFavorite(r.snapshot, path).Success?
              && (r.outcome.value <==> IsFavorite(r.snapshot, path).value == value)
              && (!r.outcome.value ==> |r.trace| > 0 && r.trace[|r.trace| - 1].Notify?)
  {
  }

  /** `follow(program, path)`: `set_favorite` to true, then "Follow program" and a container refresh on success. */
  function Follow(s: Snapshot, program: string, path: string, env: WriteEnv): (r: Call<()>)
    ensures r.outcome.Success? ==> (IsFavorite(r.snapshot, path) == Success(true) <==> EndsWithRefresh(r.trace))
    ensures r.snapshot == SetFavorite(s, program, path, true, env).snapshot
    ensures var c := SetFavorite(s, program, path, true, env);
            c.outcome == Success(true) ==> r.trace == c.trace + [Notify("Follow " + program), RefreshContainer]
  {
    Toggle(s, program, path, true, env)
  }

  /** `unfollow(program, path)`: `set_favorite` to false, then "Unfollow program" and a container refresh on success. */
  function Unfollow(s: Snapshot, program: string, path: string, env: WriteEnv): (r: Call<()>)
    ensures r.outcome.Success? ==> (IsFavorite(r.snapshot, path) == Success(false) <==> EndsWithRefresh(r.trace))
    ensures r.snapshot == SetFavorite(s, program, path, false, env).snapshot
    ensures var c := SetFavorite(s, program, path, false, env);
            c.outcome == Success(true) ==> r.trace == c.trace + [Notify("Unfollow " + program), RefreshContainer]
  {
    Toggle(s, program, path, false, env)
  }

  /** The followed entries of a document, in order, with their records. */
  function FollowedEntries(d: seq<(string, Entry)>): (r: seq<(string, Record)>)
    ensures |r| <= |d|
    ensures forall i :: 0 <= i < |r| ==> r[i].1.isFavorite == Some(true) && (r[i].0, Entry(Some(r[i].1))) in d
    decreases |d|
  {
    if |d| == 0 then []
    else if Followed(d[0].1) then [(d[0].0, d[0].1.value.value)] + FollowedEntries(d[1..])
    else FollowedEntries(d[1..])
  }

  /** Every entry of the document has a `value`. */
  predicate AllValued(d: seq<(string, Entry)>) {
    forall i :: 0 <= i < |d| ==> d[i].1.value.Some?
  }

  /** Every listed record has a `programUrl`. */
  predicate AllLinked(f: seq<(string, Record)>) {
    forall i :: 0 <= i < |f| ==> f[i].1.programUrl.Some?
  }

  /** `titles()`: the title of every followed entry, in order; raises when an entry lacks `value`. */
  function TitlesOf(d: seq<(string, Entry)>): (r: Result<seq<Option<string>>, PyError>)
    ensures r.Success? <==> AllValued(d)
    ensures r.Success? ==>
              var f := FollowedEntries(d);
              |r.value| == |f| && forall i :: 0 <= i < |f| ==> r.value[i] == f[i].1.title
    decreases |d|
  {
    if |d| == 0 then Success([])
    else match d[0].1.value
      case None => Failure(AttributeError("get"))
      case Some(rec) =>
        match TitlesOf(d[1..])
        case Failure(e) => Failure(e)
        case Success(rest) => Success((if rec.isFavorite == Some(true) then [rec.title] else []) + rest)
  }

  /** `names()`: the program name of every followed entry, in order; raises on a missing `value` or `programUrl`. */
  function NamesOf(d: seq<(string, Entry)>): (r: Result<seq<string>, PyError>)
    ensures r.Success? <==> AllValued(d) && AllLinked(FollowedEntries(d))
    ensures r.Success? ==>
              var f := FollowedEntries(d);
              |r.value| == |f| && forall i :: 0 <= i < |f| ==> r.value[i] == Name(f[i].1.programUrl.value)
    decreases |d|
  {
    if |d| == 0 then Success([])
    else match d[0].1.value
      case None => Failure(AttributeError("get"))
      case Some(rec) =>
        NamesStep(d);
        var head := if Followed(d[0].1) then [(d[0].0, rec)] else [];
        LinkedAppend(head, FollowedEntries(d[1..]));
        if rec.isFavorite == Some(true) then
          match rec.programUrl
          case None =>
            assert head[0].1 == rec;
            Failure(AttributeError("replace"))
          case Some(url) =>
            match NamesOf(d[1..])
            case Failure(e) => Failure(e)
            case Success(rest) =>
              var f, f' := FollowedEntries(d), FollowedEntries(d[1..]);
              assert f == [(d[0].0, rec)] + f';
              assert forall i :: 1 <= i < |f| ==> f[i] == f'[i - 1];
              Success([Name(url)] + rest)
        else
          NamesOf(d[1..])
  }

  /** How the first entry of a document contributes to `AllValued` and to the followed list. */
  lemma NamesStep(d: seq<(string, Entry)>)
    requires |d| > 0 && d[0].1.value.Some?
    ensures AllValued(d) <==> AllValued(d[1..])
    ensures FollowedEntries(d) ==
              (if Followed(d[0].1) then [(d[0].0, d[0].1.value.value)] else []) + FollowedEntries(d[1..])
  {
    assert forall i :: 0 <= i < |d| - 1 ==> d[1..][i] == d[i + 1];
  }

  /** A concatenation has every `programUrl` exactly when both parts do. */
  lemma LinkedAppend(a: seq<(string, Record)>, b: seq<(string, Record)>)
    ensures AllLinked(a + b) <==> AllLinked(a) && AllLinked(b)
  {
    if AllLinked(a) && AllLinked(b) {
      forall i | 0 <= i < |a + b| ensures (a + b)[i].1.programUrl.Some? {
        if i >= |a| {
          assert (a + b)[i] == b[i - |a|];
        }
      }
    }
    if AllLinked(a + b) {
      forall i | 0 <= i < |a| ensures a[i].1.programUrl.Some? {
        assert (a + b)[i] == a[i];
      }
      forall i | 0 <= i < |b| ensures b[i].1.programUrl.Some? {
        assert (a + b)[|a| + i] == b[i];
      }
    }
  }

  /** `titles()` on the store: raises on a `None` snapshot, else the followed titles in the dict's order. */
  function Titles(s: Snapshot): (r: Result<seq<Option<string>>, PyError>)
    ensures s.None? ==> r.Failure?
    ensures s.Some? ==> (r.Success? <==> AllValued(Items(s.value)))
    ensures r.Success? ==>
              && s.Some?
              && var f := FollowedEntries(Items(s.value));
                 |r.value| == |f| && forall i :: 0 <= i < |f| ==> r.value[i] == f[i].1.title
  {
    match s
    case None => Failure(AttributeError("values"))
    case Some(d) => TitlesOf(Items(d))
  }

  /** `names()` on the store: raises on a `None` snapshot, else the followed names in the dict's order. */
  function Names(s: Snapshot): (r: Result<seq<string>, PyError>)
    ensures s.None? ==> r.Failure?
    ensures s.Some? ==> (r.Success? <==> AllValued(Items(s.value)) && AllLinked(FollowedEntries(Items(s.value))))
    ensures r.Success? ==>
              && s.Some?
              && var f := FollowedEntries(Items(s.value));
                 |r.value| == |f| && forall i :: 0 <= i < |f| ==> r.value[i] == Name(f[i].1.programUrl.value)
  {
    match s
    case None => Failure(AttributeError("values"))
    case Some(d) => NamesOf(Items(d))
  }

  /** The store as constructed: an empty dict. */
  const Initial: Snapshot := Some(Document([], map[]))
}

=== FILE: favorites_properties.dfy ===
/** Properties of the favorites store that relate several calls or several operations. */
module FavoritesProperties {
  import opened Wrappers
  import opened Text
  import opened Favorites

  // ---------------------------------------------------------------- uuid

  /** `uuid` maps a concatenation to the concatenation of the ids: it works character by character. */
  lemma UuidAppend(a: string, b: string)
    ensures Uuid(a + b) == Uuid(a) + Uuid(b)
  {
    DeleteAppend(a, b, '/');
    DeleteAppend(Replace(a, "/", ""), Replace(b, "/", ""), '-');
  }

  /** On one character, `uuid` drops `/` and `-` and keeps everything else. */
  lemma UuidSingle(c: char)
    ensures Uuid([c]) == if c == '/' || c == '-' then "" else [c]
  {
    DeleteSingle(c, '/');
    DeleteSingle(c, '-');
    assert Replace("", "-", "") == "";
  }

  /** An id is its own id. */
  lemma UuidIdempotent(path: string)
    ensures Uuid(Uuid(path)) == Uuid(path)
  {
    var id := Uuid(path);
    DeleteAbsent(id, '/');
    DeleteAbsent(id, '-');
  }

  /** A text without `/` and `-` is its own id. */
  lemma UuidPlain(s: string)
    requires '/' !in s && '-' !in s
    ensures Uuid(s) == s
  {
    DeleteAbsent(s, '/');
    DeleteAbsent(s, '-');
  }

  /** Two different paths can share an id: ids are not collision-free. */
  lemma UuidNotInjective()
    ensures "a-b" != "ab" && Uuid("a-b") == Uuid("ab")
  {
    UuidAppend("a", "-b");
    UuidAppend("-", "b");
    UuidAppend("a", "b");
    UuidSingle('a');
    UuidSingle('-');
    UuidSingle('b');
  }

  // ---------------------------------------------------------------- name

  /** A join of at least two pieces ends with its last two pieces. */
  lemma {:induction false} JoinLastTwo(parts: seq<string>, sep: char)
    requires |parts| >= 2
    ensures |parts| == 2 ==> Join(parts, sep) == parts[0] + [sep] + parts[1]
    ensures |parts| > 2 ==>
              Join(parts, sep) == Join(parts[..|parts| - 2], sep) + [sep] + parts[|parts| - 2] + [sep] + parts[|parts| - 1]
  {
    var n := |parts|;
    if n > 2 {
      assert parts == parts[..n - 1] + [parts[n - 1]];
      JoinSnoc(parts[..n - 1], parts[n - 1], sep);
      assert parts[..n - 1] == parts[..n - 2] + [parts[n - 2]];
      JoinSnoc(parts[..n - 2], parts[n - 2], sep);
      assert parts[..n - 1][..n - 2] == parts[..n - 2];
    } else {
      assert parts[1..] == [parts[1]];
    }
  }

  /** The pieces before the second-to-last, joined back with a trailing separator (empty when there are none). */
  function Preceding(parts: seq<string>, sep: char): string
    requires |parts| >= 2
  {
    if |parts| == 2 then [] else Join(parts[..|parts| - 2], sep) + [sep]
  }

  /** A text with a separator is its preceding pieces, its second-to-last piece, the separator and its last piece. */
  lemma SplitSecondToLast(t: string, sep: char)
    requires sep in t
    ensures var parts := Split(t, sep);
            var n := |parts|;
            && n >= 2
            && t == Preceding(parts, sep) + parts[n - 2] + [sep] + parts[n - 1]
            && sep !in parts[n - 1]
            && (Preceding(parts, sep) == [] || Preceding(parts, sep)[|Preceding(parts, sep)| - 1] == sep)
  {
    var parts := Split(t, sep);
    JoinSplit(t, sep);
    JoinLastTwo(parts, sep);
  }

  /** With a `/` in the path, `name()` takes the second-to-last piece rather than falling back to the path. */
  lemma NameIsPiece(path: string)
    requires '/' in path
    ensures var parts := Split(Replace(path, ".relevant/", "/"), '/');
            |parts| >= 2 && Name(path) == parts[|parts| - 2]
  {
    var t := Replace(path, ".relevant/", "/");
    RelevantKeepsSlashes(path);
    assert Count(path, '/') > 0;
    assert |Split(t, '/')| >= 2;
  }

  /**
   The name of a path containing `/` is its second-to-last piece: after the
   `.relevant/` rewrite, the path is a prefix ending in `/` (or empty), then
   the name, then `/`, then a last piece without `/`.
   */
  lemma NameIsSecondToLastPiece(path: string)
    requires '/' in path
    ensures var t := Replace(path, ".relevant/", "/");
            exists before, after ::
              && t == before + Name(path) + "/" + after
              && '/' !in after
              && (before == "" || before[|before| - 1] == '/')
  {
    var t := Replace(path, ".relevant/", "/");
    NameIsPiece(path);
    SplitSecondToLast(t, '/');
    var parts := Split(t, '/');
    var n := |parts|;
    var before, after := Preceding(parts, '/'), parts[n - 1];
    assert ['/'] == "/";
    assert t == before + Name(path) + "/" + after;
  }

  // ---------------------------------------------------------------- names and titles

  /** The ids of the followed entries. */
  function FollowedIds(s: seq<(string, Entry)>): set<string> {
    set i | 0 <= i < |FollowedEntries(s)| :: FollowedEntries(s)[i].0
  }

  /** Every followed entry of a dict is listed. */
  lemma {:induction false} FollowedIdsComplete(s: seq<(string, Entry)>, j: nat)
    requires j < |s| && Followed(s[j].1)
    ensures s[j].0 in FollowedIds(s)
    decreases j
  {
    var f := FollowedEntries(s);
    if j == 0 {
      assert f[0].0 == s[0].0;
    } else {
      assert s[1..][j - 1] == s[j];
      FollowedIdsComplete(s[1..], j - 1);
      var f' := FollowedEntries(s[1..]);
      var i :| 0 <= i < |f'| && f'[i].0 == s[j].0;
      if Followed(s[0].1) {
        assert f[i + 1] == f'[i];
      } else {
        assert f[i] == f'[i];
      }
    }
  }

  /** An id is listed exactly when some entry with that id is followed. */
  lemma FollowedIdsExactly(s: seq<(string, Entry)>, k: string)
    ensures k in FollowedIds(s) <==> exists j :: 0 <= j < |s| && s[j].0 == k && Followed(s[j].1)
  {
    var f := FollowedEntries(s);
    if k in FollowedIds(s) {
      var i :| 0 <= i < |f| && f[i].0 == k;
      var j :| 0 <= j < |s| && s[j] == (k, Entry(Some(f[i].1)));
      assert Followed(s[j].1);
    }
    if exists j :: 0 <= j < |s| && s[j].0 == k && Followed(s[j].1) {
      var j :| 0 <= j < |s| && s[j].0 == k && Followed(s[j].1);
      FollowedIdsComplete(s, j);
    }
  }

  /**
   `titles()`/`names()` list exactly the followed entries of a dict: an id is
   among them exactly when `is_favorite` holds for it.
   */
  lemma ListedExactlyWhenFavorite(d: Doc, path: string)
    ensures Uuid(path) in FollowedIds(Items(d)) <==> IsFavorite(Some(d), path) == Success(true)
  {
    var k := Uuid(path);
    var items := Items(d);
    FollowedIdsExactly(items, k);
    if k in d.entries {
      var j :| 0 <= j < |d.order| && d.order[j] == k;
      assert items[j].0 == k;
    }
  }

  // ---------------------------------------------------------------- get_favorites

  /** Once activated, a refresh never keeps the previous snapshot: what it ends with does not depend on it. */
  lemma RefreshReplacesSnapshot(s1: Snapshot, s2: Snapshot, ttl: Option<nat>, env: RefreshEnv)
    requires IsActivated(env.settings)
    ensures GetFavorites(s1, ttl, env).snapshot == GetFavorites(s2, ttl, env).snapshot
    ensures GetFavorites(s1, ttl, env).trace == GetFavorites(s2, ttl, env).trace
  {
  }

  /** A refresh writes the favorites cache only with a document it has just fetched. */
  lemma RefreshWritesOnlyFetched(s: Snapshot, ttl: Option<nat>, env: RefreshEnv, i: nat)
    requires i < |GetFavorites(s, ttl, env).trace| && GetFavorites(s, ttl, env).trace[i].WriteCache?
    ensures env.fetch.Fetched? && GetFavorites(s, ttl, env).trace[i] == WriteCache(FavoritesCache, env.fetch.doc)
    ensures GetFavorites(s, ttl, env).snapshot == Some(env.fetch.doc)
  {
  }

  // ---------------------------------------------------------------- set_favorite

  /** A failed write changes nothing: the refreshed snapshot stays, and no cache is written or invalidated. */
  lemma FailedWriteChangesNothing(s: Snapshot, program: string, path: string, value: bool, env: WriteEnv)
    requires SetFavorite(s, program, path, value, env).outcome == Success(false)
    ensures var pre := GetFavorites(s, Some(WriteTtl), env.refresh);
            var r := SetFavorite(s, program, path, value, env);
            && r.snapshot == pre.snapshot
            && IsFavorite(r.snapshot, path) == IsFavorite(pre.snapshot, path)
            && (env.token.None? || env.status != 200)
            && forall i :: |pre.trace| <= i < |r.trace| ==> !CacheChange(r.trace[i])
  {
    var pre := GetFavorites(s, Some(WriteTtl), env.refresh);
    var r := SetFavorite(s, program, path, value, env);
    var c := Commit(pre.snapshot.value, program, path, value, env.token, env.status);
    assert r.trace == pre.trace + c.effects;
    forall i | |pre.trace| <= i < |r.trace| ensures !CacheChange(r.trace[i]) {
      assert r.trace[i] == c.effects[i - |pre.trace|];
    }
  }

  /** An inactive store refreshes nothing, so a missing token leaves `is_favorite` exactly as before the call. */
  lemma NoTokenKeepsFavorite(s: Snapshot, program: string, path: string, value: bool, env: WriteEnv)
    requires !IsActivated(env.refresh.settings) && env.token.None?
    ensures var r := SetFavorite(s, program, path, value, env);
            && r.snapshot == s
            && IsFavorite(r.snapshot, path) == IsFavorite(s, path)
            && (forall i :: 0 <= i < |r.trace| ==> !r.trace[i].Post? && !CacheChange(r.trace[i]))
  {
  }

  /**
   A write that went through: exactly the entry of `uuid(path)` is set to the
   payload, every other entry is as the refresh left it, the whole dict is
   written to the favorites cache and the two dependent cache families are
   invalidated, in that order, after the POST.
   */
  lemma WriteUpsertsOneEntry(s: Snapshot, program: string, path: string, value: bool, env: WriteEnv)
    requires var pre := GetFavorites(s, Some(WriteTtl), env.refresh);
             IsFavorite(pre.snapshot, path) == Success(!value) && env.token.Some? && env.status == 200
    ensures var pre := GetFavorites(s, Some(WriteTtl), env.refresh);
            var r := SetFavorite(s, program, path, value, env);
            && r.outcome == Success(true)
            && r.snapshot.Some? && pre.snapshot.Some?
            && r.snapshot.value.entries[Uuid(path)] == Entry(Some(Record(Some(value), Some(path), Some(program))))
            && (forall k :: k != Uuid(path) ==> Lookup(r.snapshot.value, k) == Lookup(pre.snapshot.value, k))
            && r.trace == pre.trace + [
                 RequestToken(UserVariant),
                 Post(FavoritesEndpoint + "/" + Uuid(path), Record(Some(value), Some(path), Some(program))),
                 WriteCache(FavoritesCache, r.snapshot.value),
                 Invalidate(OfflineCaches),
                 Invalidate(RecentCaches)]
  {
    var pre := GetFavorites(s, Some(WriteTtl), env.refresh);
    var c := Commit(pre.snapshot.value, program, path, value, env.token, env.status);
    assert c.effects == c.effects[..2] + c.effects[2..];
  }

  /** `set_favorite` is not gated on activation: an inactive store still posts when the flag differs. */
  lemma InactiveStoreStillWrites(d: Doc, program: string, path: string, env: WriteEnv)
    requires !IsActivated(env.refresh.settings)
    requires Uuid(path) !in d.entries && env.token.Some?
    ensures exists i :: 0 <= i < |SetFavorite(Some(d), program, path, true, env).trace|
                        && SetFavorite(Some(d), program, path, true, env).trace[i].Post?
  {
    var r := SetFavorite(Some(d), program, path, true, env);
    assert r.trace[1].Post?;
  }

  /**
   Following twice posts at most once: when the second call's refresh sees
   what the first call left (inactive store, or the written-through cache
   document), the second call returns true without any further effect.
   */
  lemma FollowTwicePostsOnce(s: Snapshot, program: string, path: string, e1: WriteEnv, e2: WriteEnv)
    requires SetFavorite(s, program, path, true, e1).outcome == Success(true)
    requires !IsActivated(e2.refresh.settings) || e2.refresh.cached == SetFavorite(s, program, path, true, e1).snapshot
    ensures var first := SetFavorite(s, program, path, true, e1);
            var second := SetFavorite(first.snapshot, program, path, true, e2);
            && second.outcome == Success(true)
            && second.snapshot == first.snapshot
            && forall i :: 0 <= i < |second.trace| ==> !second.trace[i].Post? && !CacheChange(second.trace[i])
  {
    var first := SetFavorite(s, program, path, true, e1);
    SetFavoriteReachesValue(s, program, path, true, e1);
    var d := first.snapshot.value;
    assert Uuid(path) in d.entries;
    assert Uuid(path) in d.order;
    assert |d.order| > 0;
  }

  /**
   Unfollowing a followed program keeps its entry as a tombstone: the id
   stays in the dict with `isFavorite` false, and drops out of the listings.
   */
  lemma UnfollowLeavesTombstone(s: Snapshot, program: string, path: string, env: WriteEnv)
    requires var pre := GetFavorites(s, Some(WriteTtl), env.refresh);
             IsFavorite(pre.snapshot, path) == Success(true) && env.token.Some? && env.status == 200
    ensures var r := Unfollow(s, program, path, env);
            && r.snapshot.Some?
            && Uuid(path) in r.snapshot.value.entries
            && r.snapshot.value.entries[Uuid(path)].value.value.isFavorite == Some(false)
            && Uuid(path) !in FollowedIds(Items(r.snapshot.value))
            && EndsWithRefresh(r.trace)
  {
    WriteUpsertsOneEntry(s, program, path, false, env);
    var r := Unfollow(s, program, path, env);
    ListedExactlyWhenFavorite(r.snapshot.value, path);
  }

  /** Following a program that was not followed lists it, and changes no other id's listing. */
  lemma FollowLists(s: Snapshot, program: string, path: string, env: WriteEnv, other: string)
    requires var pre := GetFavorites(s, Some(WriteTtl), env.refresh);
             IsFavorite(pre.snapshot, path) == Success(false) && env.token.Some? && env.status == 200
    requires other != Uuid(path)
    ensures var pre := GetFavorites(s, Some(WriteTtl), env.refresh);
            var r := Follow(s, program, path, env);
            && r.snapshot.Some? && pre.snapshot.Some?
            && Uuid(path) in FollowedIds(Items(r.snapshot.value))
            && (other in FollowedIds(Items(r.snapshot.value)) <==> other in FollowedIds(Items(pre.snapshot.value)))
  {
    WriteUpsertsOneEntry(s, program, path, true, env);
    var pre := GetFavorites(s, Some(WriteTtl), env.refresh);
    var r := Follow(s, program, path, env);
    ListedExactlyWhenFavorite(r.snapshot.value, path);
    var d, d' := pre.snapshot.value, r.snapshot.value;
    FollowedIdsExactly(Items(d), other);
    FollowedIdsExactly(Items(d'), other);
    assert Lookup(d', other) == Lookup(d, other);
    if other in d.entries {
      var j :| 0 <= j < |d.order| && d.order[j] == other;
      assert Items(d)[j].0 == other;
      var j' :| 0 <= j' < |d'.order| && d'.order[j'] == other;
      assert Items(d')[j'].0 == other;
    }
  }

  /**
   One write on a store that does not refresh: the flag flips to `value`, and
   the whole trace is one token request, exactly one POST, the write-through,
   the two invalidations, the notification and the container refresh.
   */
  lemma InactiveToggleFlips(s: Snapshot, program: string, path: string, value: bool, env: WriteEnv)
    requires !IsActivated(env.refresh.settings) && env.token.Some? && env.status == 200
    requires IsFavorite(s, path) == Success(!value)
    ensures var r := Toggle(s, program, path, value, env);
            && r.snapshot.Some? && IsFavorite(r.snapshot, path) == Success(value) && EndsWithRefresh(r.trace)
            && r.trace == [
                 RequestToken(UserVariant),
                 Post(FavoritesEndpoint + "/" + Uuid(path), Payload(program, path, value)),
                 WriteCache(FavoritesCache, r.snapshot.value),
                 Invalidate(OfflineCaches),
                 Invalidate(RecentCaches),
                 Notify((if value then "Follow " else "Unfollow ") + program),
                 RefreshContainer]
  {
    WriteUpsertsOneEntry(s, program, path, value, env);
  }

  /**
   A session from the constructed store: with a store that does not refresh
   and writes that go through, following, unfollowing and following again
   flips `is_favorite` true, false, true, each call posting once and
   refreshing the container, and leaves the program listed at the end.
   */
  lemma FollowUnfollowFollow(program: string, path: string, env: WriteEnv)
    requires !IsActivated(env.refresh.settings) && env.token.Some? && env.status == 200
    ensures var a := Follow(Initial, program, path, env);
            var b := Unfollow(a.snapshot, program, path, env);
            var c := Follow(b.snapshot, program, path, env);
            && IsFavorite(a.snapshot, path) == Success(true) && EndsWithRefresh(a.trace)
            && IsFavorite(b.snapshot, path) == Success(false) && EndsWithRefresh(b.trace)
            && IsFavorite(c.snapshot, path) == Success(true) && EndsWithRefresh(c.trace)
            && c.snapshot.Some? && Uuid(path) in FollowedIds(Items(c.snapshot.value))
            && a.trace[1].Post? && b.trace[1].Post? && c.trace[1].Post?
  {
    InactiveToggleFlips(Initial, program, path, true, env);
    var a := Follow(Initial, program, path, env);
    InactiveToggleFlips(a.snapshot, program, path, false, env);
    var b := Unfollow(a.snapshot, program, path, env);
    InactiveToggleFlips(b.snapshot, program, path, true, env);
    var c := Follow(b.snapshot, program, path, env);
    ListedExactlyWhenFavorite(c.snapshot.value, path);
  }
}

=== FILE: metadata.dfy ===
/**
 The metadata record of one listed video and the info-label dict it
 serialises to (`MetadataCreator`).

 The record is a map from attribute to value: an attribute that was never
 set is absent, which is how the constructor's `None`s read. The setters
 store their value, except that `plot` and `plotoutline` are stripped of
 surrounding whitespace. `get_video_dict` turns the record into a dict with
 fixed rules about which key appears, which attribute wins and which keys
 are always present. A datetime is modelled by what the dict needs of it:
 its two renderings and whether it is the Unix epoch.
 */
module MetadataCreator {
  import opened Wrappers
  import opened Text

  /** The attributes of a `MetadataCreator`. */
  datatype Field =
    | Brands | Datetime | Duration | Episode | Genre | Geolocked | Icon
    | Mediatype | Offtime | Ontime | Pageid | Permalink | Plot | Plotoutline
    | Score | Season | Subtitle | Title | Tvshowtitle | Videoid | Year

  /**
   A timezone-aware datetime as `get_video_dict` observes it: its rendering
   `strftime('%Y-%m-%d %H:%M:%S')` (`stamp`), its rendering
   `strftime('%Y-%m-%d')` (`day`), and whether it equals the Unix epoch
   `datetime.fromtimestamp(0, UTC)`.
   */
  datatype Moment = Moment(stamp: string, day: string, epoch: bool)

  /** A value held by an attribute. */
  datatype Value =
    | TextList(texts: seq<string>)
    | Time(time: Moment)
    | Whole(whole: int)
    | Flag(flag: bool)
    | Str(str: string)

  /**
   The kind of value each attribute holds: `brands` a list of strings, the
   three datetimes a datetime, the counts and the score an integer,
   `geolocked` a boolean, the rest a string.
   */
  predicate Fits(f: Field, v: Value) {
    match f
    case Brands => v.TextList?
    case Datetime | Offtime | Ontime => v.Time?
    case Duration | Episode | Score | Season | Year => v.Whole?
    case Geolocked => v.Flag?
    case _ => v.Str?
  }

  /** A record: the attributes set so far, with their values. */
  type Metadata = map<Field, Value>

  /** Every attribute of the record holds a value of its kind, as the setters keep it. */
  predicate Typed(m: Metadata) {
    && (Brands in m ==> m[Brands].TextList?)
    && (Datetime in m ==> m[Datetime].Time?) && (Offtime in m ==> m[Offtime].Time?) && (Ontime in m ==> m[Ontime].Time?)
    && (Duration in m ==> m[Duration].Whole?) && (Episode in m ==> m[Episode].Whole?) && (Score in m ==> m[Score].Whole?)
    && (Season in m ==> m[Season].Whole?) && (Year in m ==> m[Year].Whole?)
    && (Geolocked in m ==> m[Geolocked].Flag?)
    && (Genre in m ==> m[Genre].Str?) && (Icon in m ==> m[Icon].Str?) && (Mediatype in m ==> m[Mediatype].Str?)
    && (Pageid in m ==> m[Pageid].Str?) && (Permalink in m ==> m[Permalink].Str?) && (Plot in m ==> m[Plot].Str?)
    && (Plotoutline in m ==> m[Plotoutline].Str?) && (Subtitle in m ==> m[Subtitle].Str?) && (Title in m ==> m[Title].Str?)
    && (Tvshowtitle in m ==> m[Tvshowtitle].Str?) && (Videoid in m ==> m[Videoid].Str?)
  }

  /** A freshly constructed `MetadataCreator`: nothing is set. */
  function Empty(): Metadata {
    map[]
  }

  /** One call of a property setter: the attribute and the value given to it. */
  datatype Setting =
    | SetBrands(brands: seq<string>)
    | SetDatetime(datetime: Moment)
    | SetDuration(duration: int)
    | SetEpisode(episode: int)
    | SetGenre(genre: string)
    | SetGeolocked(geolocked: bool)
    | SetIcon(icon: string)
    | SetMediatype(mediatype: string)
    | SetOfftime(offtime: Moment)
    | SetOntime(ontime: Moment)
    | SetPageid(pageid: string)
    | SetPermalink(permalink: string)
    | SetPlot(plot: string)
    | SetPlotoutline(plotoutline: string)
    | SetScore(score: int)
    | SetSeason(season: int)
    | SetSubtitle(subtitle: string)
    | SetTitle(title: string)
    | SetTvshowtitle(tvshowtitle: string)
    | SetVideoid(videoid: string)
    | SetYear(year: int)
  {
    /** The attribute this setter writes. */
    function Target(): Field {
      match this
      case SetBrands(_) => Brands
      case SetDatetime(_) => Datetime
      case SetDuration(_) => Duration
      case SetEpisode(_) => Episode
      case SetGenre(_) => Genre
      case SetGeolocked(_) => Geolocked
      case SetIcon(_) => Icon
      case SetMediatype(_) => Mediatype
      case SetOfftime(_) => Offtime
      case SetOntime(_) => Ontime
      case SetPageid(_) => Pageid
      case SetPermalink(_) => Permalink
      case SetPlot(_) => Plot
      case SetPlotoutline(_) => Plotoutline
      case SetScore(_) => Score
      case SetSeason(_) => Season
      case SetSubtitle(_) => Subtitle
      case SetTitle(_) => Title
      case SetTvshowtitle(_) => Tvshowtitle
      case SetVideoid(_) => Videoid
      case SetYear(_) => Year
    }

    /**
     The value the setter stores: the value handed to it, stripped of
     surrounding whitespace by the `plot` and `plotoutline` setters.
     */
    function Stored(): Value {
      match this
      case SetBrands(v) => TextList(v)
      case SetDatetime(v) => Time(v)
      case SetDuration(v) => Whole(v)
      case SetEpisode(v) => Whole(v)
      case SetGenre(v) => Str(v)
      case SetGeolocked(v) => Flag(v)
      case SetIcon(v) => Str(v)
      case SetMediatype(v) => Str(v)
      case SetOfftime(v) => Time(v)
      case SetOntime(v) => Time(v)
      case SetPageid(v) => Str(v)
      case SetPermalink(v) => Str(v)
      case SetPlot(v) => Str(Strip(v))
      case SetPlotoutline(v) => Str(Strip(v))
      case SetScore(v) => Whole(v)
      case SetSeason(v) => Whole(v)
      case SetSubtitle(v) => Str(v)
      case SetTitle(v) => Str(v)
      case SetTvshowtitle(v) => Str(v)
      case SetVideoid(v) => Str(v)
      case SetYear(v) => Whole(v)
    }
  }

  /** A property setter: the target attribute is set to the stored value; every other attribute keeps its value or stays unset. */
  function Assign(m: Metadata, s: Setting): (r: Metadata)
    ensures s.Target() in r && r[s.Target()] == s.Stored()
    ensures forall f :: f != s.Target() ==> (f in r <==> f in m) && (f in m ==> r[f] == m[f])
  {
    m[s.Target() := s.Stored()]
  }

  /** Python truthiness of a set attribute: empty lists, empty strings, zero and `False` are false; datetimes are true. */
  predicate Truthy(m: Metadata, f: Field) {
    f in m &&
    match m[f]
    case TextList(t) => |t| > 0
    case Time(_) => true
    case Whole(n) => n != 0
    case Flag(b) => b
    case Str(s) => |s| > 0
  }

  /** A datetime attribute as read from the record: `None` when it is unset. */
  function TimeOf(m: Metadata, f: Field): Option<Moment> {
    if f in m && m[f].Time? then Some(m[f].time) else None
  }

  /** A datetime attribute that is set and is not the Unix epoch. */
  predicate Dated(m: Metadata, f: Field) {
    TimeOf(m, f).Some? && !TimeOf(m, f).value.epoch
  }

  /** A value of the info-label dict. */
  datatype Info = Text(text: string) | Number(number: int) | Texts(texts: seq<string>) | Null

  /** The dict value an attribute is copied as (datetimes and flags are never copied). */
  function Plain(v: Value): Info {
    match v
    case TextList(t) => Texts(t)
    case Whole(n) => Number(n)
    case Str(s) => Text(s)
    case _ => Null
  }

  /** The studio used when no channel applies. */
  const DefaultStudio: string := "VRT"

  /** The overlay every video gets, geolocked or not. */
  const Overlay: int := 3

  /**
   `CHANNELS.get(brand, {'studio': 'VRT'}).get('studio')`, with the channel
   table reduced to each channel's studio (`None` for a channel without one).
   */
  function ChannelStudio(channels: map<string, Option<string>>, brand: string): (r: Info)
    ensures brand !in channels ==> r == Text(DefaultStudio)
    ensures brand in channels && channels[brand].Some? ==> r == Text(channels[brand].value)
    ensures brand in channels && channels[brand].None? ==> r == Null
  {
    if brand !in channels then Text(DefaultStudio)
    else match channels[brand]
      case Some(studio) => Text(studio)
      case None => Null
  }

  /** What a key copied from attribute `f` holds: the attribute's value when the attribute is truthy. */
  function Shown(m: Metadata, f: Field): Option<Info> {
    if Truthy(m, f) then Some(Plain(m[f])) else None
  }

  /** The datetime `aired` and `date` are formatted from: `datetime` if set, else a non-epoch `ontime`. */
  function AiredFrom(m: Metadata): Option<Moment> {
    if TimeOf(m, Datetime).Some? then TimeOf(m, Datetime)
    else if Dated(m, Ontime) then TimeOf(m, Ontime)
    else None
  }

  /** The datetime `dateadded` is formatted from: a non-epoch `ontime`, else `datetime` if set. */
  function AddedFrom(m: Metadata): Option<Moment> {
    if Dated(m, Ontime) then TimeOf(m, Ontime)
    else if TimeOf(m, Datetime).Some? then TimeOf(m, Datetime)
    else None
  }

  /** A datetime rendered with date and time, when there is one. */
  function Stamp(t: Option<Moment>): Option<Info> {
    if t.Some? then Some(Text(t.value.stamp)) else None
  }

  /** A datetime rendered as a date only, when there is one. */
  function Day(t: Option<Moment>): Option<Info> {
    if t.Some? then Some(Text(t.value.day)) else None
  }

  /** The studio of the first brand's channel, `VRT` when there are no brands. */
  function StudioOf(m: Metadata, channels: map<string, Option<string>>): Info {
    if Truthy(m, Brands) && m[Brands].TextList? then ChannelStudio(channels, m[Brands].texts[0]) else Text(DefaultStudio)
  }

  /** `showlink`: the permalink as a one-element list, when it is truthy. */
  function LinkList(m: Metadata): Option<Info> {
    if Truthy(m, Permalink) && m[Permalink].Str? then Some(Texts([m[Permalink].str])) else None
  }

  /**
   The info-label dict `get_video_dict` returns, one slot per key it can
   hold: `None` when the key is missing. The slot `movieset` is the key `set`.
   */
  datatype Labels = Labels(
    studio: Option<Info>, aired: Option<Info>, date: Option<Info>, dateadded: Option<Info>,
    duration: Option<Info>, episode: Option<Info>, genre: Option<Info>, tag: Option<Info>,
    overlay: Option<Info>, icon: Option<Info>, actualicon: Option<Info>, mediatype: Option<Info>,
    path: Option<Info>, showlink: Option<Info>, plot: Option<Info>, plotoutline: Option<Info>,
    tagline: Option<Info>, rating: Option<Info>, season: Option<Info>, title: Option<Info>,
    tvshowtitle: Option<Info>, movieset: Option<Info>, videoid: Option<Info>, year: Option<Info>)

  /** The empty dict `video_dict = {}`. */
  const NoLabels: Labels :=
    Labels(None, None, None, None, None, None, None, None, None, None, None, None,
           None, None, None, None, None, None, None, None, None, None, None, None)

  /**
   The dict `get_video_dict` returns for `m`, described key by key rather
   than in the order the source builds it: `studio` and `overlay` always;
   the dates from their preferred source; `tagline` from `subtitle` before
   `plotoutline`; every other key copied from its attribute when that is truthy.
   */
  function Describe(m: Metadata, channels: map<string, Option<string>>): Labels {
    Labels(
      studio := Some(StudioOf(m, channels)),
      aired := Stamp(AiredFrom(m)),
      date := Day(AiredFrom(m)),
      dateadded := Stamp(AddedFrom(m)),
      duration := Shown(m, Duration),
      episode := Shown(m, Episode),
      genre := Shown(m, Genre),
      tag := Shown(m, Genre),
      overlay := Some(Number(Overlay)),
      icon := Shown(m, Icon),
      actualicon := Shown(m, Icon),
      mediatype := Shown(m, Mediatype),
      path := Shown(m, Permalink),
      showlink := LinkList(m),
      plot := Shown(m, Plot),
      plotoutline := Shown(m, Plotoutline),
      tagline := if Truthy(m, Subtitle) then Shown(m, Subtitle) else Shown(m, Plotoutline),
      rating := Shown(m, Score),
      season := Shown(m, Season),
      title := Shown(m, Title),
      tvshowtitle := Shown(m, Tvshowtitle),
      movieset := Shown(m, Tvshowtitle),
      videoid := Shown(m, Videoid),
      year := Shown(m, Year))
  }

  /** `if value: video_dict[key] = value`: the new value when there is one, else what the slot held. */
  function Put(v: Option<Info>, held: Option<Info>): Option<Info> {
    if v.Some? then v else held
  }

  /**
   `get_video_dict`: the info labels of the record, written in the order of
   the source, so that a later line overwrites an earlier one (`subtitle`
   over `plotoutline` for `tagline`). It is the dict the key-by-key
   description gives.
   */
  function VideoDict(m: Metadata, channels: map<string, Option<string>>): (r: Labels)
    ensures r == Describe(m, channels)
  {
    var aired := TimeOf(m, Datetime);
    var on := TimeOf(m, Ontime);
    var d0 := NoLabels.(studio := Some(StudioOf(m, channels)));
    var d1 := if aired.Some? then d0.(aired := Some(Text(aired.value.stamp)), date := Some(Text(aired.value.day)))
              else if Dated(m, Ontime) then d0.(aired := Some(Text(on.value.stamp)), date := Some(Text(on.value.day)))
              else d0;
    var d2 := if Dated(m, Ontime) then d1.(dateadded := Some(Text(on.value.stamp)))
              else if aired.Some? then d1.(dateadded := Some(Text(aired.value.stamp)))
              else d1;
    var d3 := d2.(duration := Put(Shown(m, Duration), d2.duration));
    var d4 := d3.(episode := Put(Shown(m, Episode), d3.episode));
    var d5 := d4.(genre := Put(Shown(m, Genre), d4.genre), tag := Put(Shown(m, Genre), d4.tag));
    var d6 := d5.(overlay := Some(Number(Overlay)));
    var d7 := d6.(icon := Put(Shown(m, Icon), d6.icon), actualicon := Put(Shown(m, Icon), d6.actualicon));
    var d8 := d7.(mediatype := Put(Shown(m, Mediatype), d7.mediatype));
    var d9 := d8.(path := Put(Shown(m, Permalink), d8.path), showlink := Put(LinkList(m), d8.showlink));
    var d10 := d9.(plot := Put(Shown(m, Plot), d9.plot));
    var d11 := d10.(plotoutline := Put(Shown(m, Plotoutline), d10.plotoutline), tagline := Put(Shown(m, Plotoutline), d10.tagline));
    var d12 := d11.(rating := Put(Shown(m, Score), d11.rating));
    var d13 := d12.(season := Put(Shown(m, Season), d12.season));
    var d14 := d13.(tagline := Put(Shown(m, Subtitle), d13.tagline));
    var d15 := d14.(title := Put(Shown(m, Title), d14.title));
    var d16 := d15.(tvshowtitle := Put(Shown(m, Tvshowtitle), d15.tvshowtitle), movieset := Put(Shown(m, Tvshowtitle), d15.movieset));
    var d17 := d16.(videoid := Put(Shown(m, Videoid), d16.videoid));
    d17.(year := Put(Shown(m, Year), d17.year))
  }
}

=== FILE: metadata_properties.dfy ===
/**
 Properties of the metadata record and of `get_video_dict`: what the setters
 keep and overwrite, which keys are always present, which attribute wins,
 which keys come in pairs, and which attributes never reach the dict.

 The dict properties are stated of the key-by-key description `Describe`;
 `VideoDict`, the dict built in the source's order, equals it for every
 record, so they hold of `VideoDict` too. Records built from `Empty` by
 setters are `Typed`, which the properties that read an attribute's value
 assume.
 */
module MetadataProperties {
  import opened Wrappers
  import opened Text
  import opened MetadataCreator

  // ---------------------------------------------------------------- setters

  /** A record is typed exactly when every attribute it holds fits its kind. */
  lemma TypedFits(m: Metadata)
    ensures Typed(m) <==> forall f :: f in m ==> Fits(f, m[f])
  {
  }

  /** Every setter stores a value of its attribute's kind. */
  lemma StoredFits(s: Setting)
    ensures Fits(s.Target(), s.Stored())
  {
    match s
    case SetBrands(_) =>
    case SetDatetime(_) =>
    case SetDuration(_) =>
    case SetEpisode(_) =>
    case SetGenre(_) =>
    case SetGeolocked(_) =>
    case SetIcon(_) =>
    case SetMediatype(_) =>
    case SetOfftime(_) =>
    case SetOntime(_) =>
    case SetPageid(_) =>
    case SetPermalink(_) =>
    case SetPlot(_) =>
    case SetPlotoutline(_) =>
    case SetScore(_) =>
    case SetSeason(_) =>
    case SetSubtitle(_) =>
    case SetTitle(_) =>
    case SetTvshowtitle(_) =>
    case SetVideoid(_) =>
    case SetYear(_) =>
  }

  /** Storing a value of the attribute's kind keeps a record typed. */
  lemma UpdateKeepsTyped(m: Metadata, f: Field, v: Value)
    requires Typed(m) && Fits(f, v)
    ensures Typed(m[f := v])
  {
    TypedFits(m);
    TypedFits(m[f := v]);
  }

  /** The record as constructed, with every attribute `None`, is typed. */
  lemma EmptyTyped()
    ensures Typed(Empty())
    ensures forall f :: Shown(Empty(), f).None? && TimeOf(Empty(), f).None? && !Truthy(Empty(), f)
  {
  }

  /** Every setter keeps the record typed. */
  lemma AssignKeepsTyped(m: Metadata, s: Setting)
    requires Typed(m)
    ensures Typed(Assign(m, s))
  {
    StoredFits(s);
    UpdateKeepsTyped(m, s.Target(), s.Stored());
  }

  /** Setting an attribute twice keeps only the second value. */
  lemma AssignOverwrites(m: Metadata, s1: Setting, s2: Setting)
    requires s1.Target() == s2.Target()
    ensures Assign(Assign(m, s1), s2) == Assign(m, s2)
  {
    var t, v1, v2 := s1.Target(), s1.Stored(), s2.Stored();
    assert m[t := v1][t := v2] == m[t := v2];
  }

  /** Setters of different attributes can be applied in either order. */
  lemma AssignCommutes(m: Metadata, s1: Setting, s2: Setting)
    requires s1.Target() != s2.Target()
    ensures Assign(Assign(m, s1), s2) == Assign(Assign(m, s2), s1)
  {
    var t1, t2, v1, v2 := s1.Target(), s2.Target(), s1.Stored(), s2.Stored();
    assert m[t1 := v1][t2 := v2] == m[t2 := v2][t1 := v1];
  }

  /** Every setter but `plot` and `plotoutline` stores exactly the value handed to it. */
  lemma SettersStoreAsGiven(m: Metadata, s: Setting)
    requires !s.SetPlot? && !s.SetPlotoutline?
    ensures Assign(m, s)[s.Target()] == match s
      case SetBrands(v) => TextList(v)
      case SetDatetime(v) => Time(v)
      case SetOfftime(v) => Time(v)
      case SetOntime(v) => Time(v)
      case SetGeolocked(v) => Flag(v)
      case SetDuration(v) => Whole(v)
      case SetEpisode(v) => Whole(v)
      case SetScore(v) => Whole(v)
      case SetSeason(v) => Whole(v)
      case SetYear(v) => Whole(v)
      case SetGenre(v) => Str(v)
      case SetIcon(v) => Str(v)
      case SetMediatype(v) => Str(v)
      case SetPageid(v) => Str(v)
      case SetPermalink(v) => Str(v)
      case SetSubtitle(v) => Str(v)
      case SetTitle(v) => Str(v)
      case SetTvshowtitle(v) => Str(v)
      case SetVideoid(v) => Str(v)
      case _ => Str("")
  {
  }

  /** The `plot` and `plotoutline` setters store the value stripped of surrounding whitespace. */
  lemma PlotStored(m: Metadata, v: string)
    ensures Assign(m, SetPlot(v))[Plot] == Str(Strip(v))
    ensures Assign(m, SetPlotoutline(v))[Plotoutline] == Str(Strip(v))
  {
  }

  /** Handing `plot` or `plotoutline` an already stripped value stores the same thing: stripping twice changes nothing. */
  lemma PlotSetterIdempotent(m: Metadata, v: string)
    ensures Assign(m, SetPlot(Strip(v))) == Assign(m, SetPlot(v))
    ensures Assign(m, SetPlotoutline(Strip(v))) == Assign(m, SetPlotoutline(v))
  {
    StripIdempotent(v);
  }

  /** A stored `plot` or `plotoutline` has no surrounding whitespace, whatever was given. */
  lemma StoredPlotTrimmed(m: Metadata, v: string)
    ensures var t := Assign(m, SetPlot(v))[Plot].str;
            t == "" || (!IsSpace(t[0]) && !IsSpace(t[|t| - 1]))
  {
    StripEnds(v);
  }

  // ---------------------------------------------------------------- the dict, key by key

  /**
   `studio` is always present: `VRT` without brands, otherwise the studio of
   the channel of the first brand, `VRT` for an unknown channel and `None`
   for a channel without a studio.
   */
  lemma StudioAlwaysPresent(m: Metadata, channels: map<string, Option<string>>)
    requires Typed(m)
    ensures Describe(m, channels).studio.Some?
    ensures !Truthy(m, Brands) ==> Describe(m, channels).studio == Some(Text("VRT"))
    ensures Truthy(m, Brands) && m[Brands].texts[0] !in channels ==> Describe(m, channels).studio == Some(Text("VRT"))
    ensures Truthy(m, Brands) && m[Brands].texts[0] in channels ==>
              Describe(m, channels).studio == Some(if channels[m[Brands].texts[0]].Some? then Text(channels[m[Brands].texts[0]].value) else Null)
  {
  }

  /** `overlay` is always 3, geolocked or not. */
  lemma OverlayAlwaysThree(m: Metadata, channels: map<string, Option<string>>)
    ensures Describe(m, channels).overlay == Some(Number(3))
  {
  }

  /**
   `aired` and `date` come from `datetime` when it is set, else from a
   non-epoch `ontime`; `dateadded` prefers a non-epoch `ontime` over
   `datetime`; with neither, none of the three keys is present.
   */
  lemma DatePrecedence(m: Metadata, channels: map<string, Option<string>>)
    requires Typed(m)
    ensures Datetime in m ==>
              Describe(m, channels).aired == Some(Text(m[Datetime].time.stamp)) && Describe(m, channels).date == Some(Text(m[Datetime].time.day))
    ensures Datetime !in m && Ontime in m && !m[Ontime].time.epoch ==>
              Describe(m, channels).aired == Some(Text(m[Ontime].time.stamp)) && Describe(m, channels).date == Some(Text(m[Ontime].time.day))
    ensures Ontime in m && !m[Ontime].time.epoch ==> Describe(m, channels).dateadded == Some(Text(m[Ontime].time.stamp))
    ensures (Ontime !in m || m[Ontime].time.epoch) && Datetime in m ==> Describe(m, channels).dateadded == Some(Text(m[Datetime].time.stamp))
    ensures Datetime !in m && (Ontime !in m || m[Ontime].time.epoch) ==> Describe(m, channels).aired.None? && Describe(m, channels).date.None? && Describe(m, channels).dateadded.None?
  {
  }

  /**
   Paired keys are set together from the same attribute: `genre` and `tag`,
   `icon` and `actualicon`, `tvshowtitle` and `set`; `path` holds the
   permalink exactly when `showlink` holds the one-element list of it.
   */
  lemma PairedKeys(m: Metadata, channels: map<string, Option<string>>)
    requires Typed(m)
    ensures Describe(m, channels).genre == Describe(m, channels).tag && Describe(m, channels).icon == Describe(m, channels).actualicon && Describe(m, channels).tvshowtitle == Describe(m, channels).movieset
    ensures Describe(m, channels).path.Some? <==> Describe(m, channels).showlink.Some?
    ensures forall p :: Describe(m, channels).path == Some(Text(p)) <==> Describe(m, channels).showlink == Some(Texts([p]))
  {
  }

  /**
   `tagline` comes from `subtitle` when that is not empty, otherwise from
   `plotoutline`, which also sets the `plotoutline` key.
   */
  lemma TaglinePrecedence(m: Metadata, channels: map<string, Option<string>>)
    requires Typed(m)
    ensures Subtitle in m && m[Subtitle].str != "" ==> Describe(m, channels).tagline == Some(Text(m[Subtitle].str))
    ensures (Subtitle !in m || m[Subtitle].str == "") && Plotoutline in m && m[Plotoutline].str != "" ==>
              Describe(m, channels).tagline == Some(Text(m[Plotoutline].str))
    ensures (Subtitle !in m || m[Subtitle].str == "") && (Plotoutline !in m || m[Plotoutline].str == "") ==> Describe(m, channels).tagline.None?
    ensures Describe(m, channels).plotoutline == if Plotoutline in m && m[Plotoutline].str != "" then Some(Text(m[Plotoutline].str)) else None
  {
  }

  /**
   A key copied from a numeric attribute is present exactly when the
   attribute is set and non-zero, so a `season`, `episode` or `duration` of 0
   is left out.
   */
  lemma ZeroCountsOmitted(m: Metadata, channels: map<string, Option<string>>)
    requires Typed(m)
    ensures Describe(m, channels).duration.Some? <==> Duration in m && m[Duration].whole != 0
    ensures Describe(m, channels).episode.Some? <==> Episode in m && m[Episode].whole != 0
    ensures Describe(m, channels).rating.Some? <==> Score in m && m[Score].whole != 0
    ensures Describe(m, channels).season.Some? <==> Season in m && m[Season].whole != 0
    ensures Describe(m, channels).year.Some? <==> Year in m && m[Year].whole != 0
  {
  }

  /** A fresh record serialises to `studio` `VRT` and `overlay` 3 and nothing else. */
  lemma EmptyRecordDict(channels: map<string, Option<string>>)
    ensures Describe(Empty(), channels) == NoLabels.(studio := Some(Text("VRT")), overlay := Some(Number(3)))
  {
  }

  /** The `plot` key holds a stored plot text, and is missing exactly when that text is empty. */
  lemma PlotKey(m: Metadata, channels: map<string, Option<string>>)
    requires Plot in m && m[Plot].Str?
    ensures Describe(m, channels).plot == if m[Plot].str == "" then None else Some(Text(m[Plot].str))
  {
  }

  /** After the `plot` setter, the `plot` key holds the stripped plot, and is missing exactly when stripping leaves nothing. */
  lemma PlotShownStripped(m: Metadata, v: string, channels: map<string, Option<string>>)
    ensures Describe(Assign(m, SetPlot(v)), channels).plot == if |Strip(v)| == 0 then None else Some(Text(Strip(v)))
  {
    PlotStored(m, v);
    PlotKey(Assign(m, SetPlot(v)), channels);
  }

  /** A `plot` of whitespace only is stripped to nothing and left out of the dict. */
  lemma BlankPlotOmitted(m: Metadata, v: string, channels: map<string, Option<string>>)
    requires AllSpace(v)
    ensures Describe(Assign(m, SetPlot(v)), channels).plot.None?
  {
    StripAllSpace(v);
    PlotShownStripped(m, v, channels);
  }

  /** Two records that agree on every attribute except `geolocked`, `offtime` and `pageid`. */
  predicate SameUsed(m1: Metadata, m2: Metadata) {
    forall f :: f != Geolocked && f != Offtime && f != Pageid ==> (f in m1 <==> f in m2) && (f in m1 ==> m1[f] == m2[f])
  }

  /** The key-by-key description reads no attribute but the used ones. */
  lemma DescribeReadsOnlyUsed(m1: Metadata, m2: Metadata, channels: map<string, Option<string>>)
    requires SameUsed(m1, m2)
    ensures Describe(m1, channels) == Describe(m2, channels)
  {
    SameStudio(m1, m2, channels);
    SameDates(m1, m2, channels);
    SameLeadingKeys(m1, m2, channels);
    SameTrailingKeys(m1, m2, channels);
  }

  /** `studio` reads only the brands. */
  lemma SameStudio(m1: Metadata, m2: Metadata, channels: map<string, Option<string>>)
    requires SameUsed(m1, m2)
    ensures var d1, d2 := Describe(m1, channels), Describe(m2, channels);
            d1.studio == d2.studio
  {
    SameAttribute(m1, m2, Brands);
  }

  /** The three dates read only `datetime` and `ontime`. */
  lemma SameDates(m1: Metadata, m2: Metadata, channels: map<string, Option<string>>)
    requires SameUsed(m1, m2)
    ensures var d1, d2 := Describe(m1, channels), Describe(m2, channels);
            d1.aired == d2.aired && d1.date == d2.date && d1.dateadded == d2.dateadded
  {
    SameAttribute(m1, m2, Datetime);
    SameAttribute(m1, m2, Ontime);
  }

  /** The keys from `duration` to `mediatype` read only the used attributes. */
  lemma SameLeadingKeys(m1: Metadata, m2: Metadata, channels: map<string, Option<string>>)
    requires SameUsed(m1, m2)
    ensures var d1, d2 := Describe(m1, channels), Describe(m2, channels);
            d1.duration == d2.duration && d1.episode == d2.episode && d1.genre == d2.genre &&
            d1.tag == d2.tag && d1.overlay == d2.overlay && d1.icon == d2.icon &&
            d1.actualicon == d2.actualicon && d1.mediatype == d2.mediatype
  {
    SameShown(m1, m2);
  }

  /** The keys from `path` to `year` read only the used attributes. */
  lemma SameTrailingKeys(m1: Metadata, m2: Metadata, channels: map<string, Option<string>>)
    requires SameUsed(m1, m2)
    ensures var d1, d2 := Describe(m1, channels), Describe(m2, channels);
            d1.path == d2.path && d1.showlink == d2.showlink && d1.plot == d2.plot &&
            d1.plotoutline == d2.plotoutline && d1.tagline == d2.tagline && d1.rating == d2.rating &&
            d1.season == d2.season && d1.title == d2.title && d1.tvshowtitle == d2.tvshowtitle &&
            d1.movieset == d2.movieset && d1.videoid == d2.videoid && d1.year == d2.year
  {
    SameShown(m1, m2);
  }

  /** Records that agree on the used attributes show each of them alike. */
  lemma SameShown(m1: Metadata, m2: Metadata)
    requires SameUsed(m1, m2)
    ensures forall f :: f != Geolocked && f != Offtime && f != Pageid ==>
              Truthy(m1, f) == Truthy(m2, f) && Shown(m1, f) == Shown(m2, f) && TimeOf(m1, f) == TimeOf(m2, f)
  {
    forall f | f != Geolocked && f != Offtime && f != Pageid
      ensures Truthy(m1, f) == Truthy(m2, f) && Shown(m1, f) == Shown(m2, f) && TimeOf(m1, f) == TimeOf(m2, f)
    {
      SameAttribute(m1, m2, f);
    }
  }

  /** Records holding the same value for an attribute show it alike. */
  lemma SameAttribute(m1: Metadata, m2: Metadata, f: Field)
    requires (f in m1 <==> f in m2) && (f in m1 ==> m1[f] == m2[f])
    ensures Truthy(m1, f) == Truthy(m2, f)
    ensures Shown(m1, f) == Shown(m2, f) && TimeOf(m1, f) == TimeOf(m2, f)
  {
  }

  /** The dict reads no attribute but the used ones: records that agree on those have the same dict. */
  lemma DictReadsOnlyUsed(m1: Metadata, m2: Metadata, channels: map<string, Option<string>>)
    requires SameUsed(m1, m2)
    ensures VideoDict(m1, channels) == VideoDict(m2, channels)
  {
    DescribeReadsOnlyUsed(m1, m2, channels);
  }

  /**
   `geolocked`, `offtime` and `pageid` never reach the dict (the overlay is
   3 either way, the `offtime` lines are commented out and `pageid` is never
   read): setting any of them leaves the dict unchanged.
   */
  lemma UnusedAttributes(m: Metadata, s: Setting, channels: map<string, Option<string>>)
    requires s.SetGeolocked? || s.SetOfftime? || s.SetPageid?
    ensures VideoDict(Assign(m, s), channels) == VideoDict(m, channels)
  {
    assert SameUsed(Assign(m, s), m);
    DictReadsOnlyUsed(Assign(m, s), m, channels);
  }
}

=== FILE: text.dfy ===
/**
 Python string operations the favorites store and the metadata serialiser rely on:
 `str.replace`, `str.split` with an explicit separator, and `str.strip()`.
 */
module Text {

  /** Number of occurrences of `c` in `s`. */
  function Count(s: string, c: char): (n: nat)
    ensures n <= |s|
    ensures n == 0 <==> c !in s
    decreases |s|
  {
    if |s| == 0 then 0 else (if s[0] == c then 1 else 0) + Count(s[1..], c)
  }

  lemma {:induction false} CountAppend(a: string, b: string, c: char)
    ensures Count(a + b, c) == Count(a, c) + Count(b, c)
    decreases |a|
  {
    if |a| == 0 {
      assert a + b == b;
    } else {
      CountAppend(a[1..], b, c);
      assert (a + b)[1..] == a[1..] + b;
    }
  }

  /**
   Python's `s.replace(pat, rep)`: scans left to right and replaces every
   non-overlapping occurrence of `pat`. Only non-empty patterns are used here.
   */
  function Replace(s: string, pat: string, rep: string): string
    requires |pat| > 0
    decreases |s|
  {
    if |s| < |pat| then s
    else if s[..|pat|] == pat then rep + Replace(s[|pat|..], pat, rep)
    else [s[0]] + Replace(s[1..], pat, rep)
  }

  /** Replacing a pattern by a text with as many `c` as the pattern keeps the number of `c`. */
  lemma {:induction false} ReplaceKeepsCount(s: string, pat: string, rep: string, c: char)
    requires |pat| > 0
    requires Count(pat, c) == Count(rep, c)
    ensures Count(Replace(s, pat, rep), c) == Count(s, c)
    decreases |s|
  {
    if |s| < |pat| {
    } else if s[..|pat|] == pat {
      ReplaceKeepsCount(s[|pat|..], pat, rep, c);
      CountAppend(rep, Replace(s[|pat|..], pat, rep), c);
      assert s == pat + s[|pat|..];
      CountAppend(pat, s[|pat|..], c);
    } else {
      ReplaceKeepsCount(s[1..], pat, rep, c);
      CountAppend([s[0]], Replace(s[1..], pat, rep), c);
      assert s == [s[0]] + s[1..];
      CountAppend([s[0]], s[1..], c);
    }
  }

  /** `s.replace(c, '')` keeps exactly the characters of `s` other than `c`. */
  lemma {:induction false} DeleteMembership(s: string, c: char, x: char)
    ensures x in Replace(s, [c], "") <==> x in s && x != c
    decreases |s|
  {
    if |s| >= 1 {
      DeleteMembership(s[1..], c, x);
      assert s == [s[0]] + s[1..];
      assert s[..1] == [s[0]];
    }
  }

  /** `s.replace(c, '')` of a character that does not occur changes nothing. */
  lemma {:induction false} DeleteAbsent(s: string, c: char)
    requires c !in s
    ensures Replace(s, [c], "") == s
    decreases |s|
  {
    if |s| > 0 {
      assert s[..1] == [s[0]];
      DeleteAbsent(s[1..], c);
      assert [s[0]] + s[1..] == s;
    }
  }

  /** `s.replace(c, '')` distributes over concatenation. */
  lemma {:induction false} DeleteAppend(a: string, b: string, c: char)
    ensures Replace(a + b, [c], "") == Replace(a, [c], "") + Replace(b, [c], "")
    decreases |a|
  {
    if |a| == 0 {
      assert a + b == b;
    } else {
      DeleteAppend(a[1..], b, c);
      assert (a + b)[1..] == a[1..] + b;
      assert (a + b)[..1] == a[..1] == [a[0]];
    }
  }

  /** `s.replace(c, '')` on one character. */
  lemma DeleteSingle(x: char, c: char)
    ensures Replace([x], [c], "") == if x == c then "" else [x]
  {
    assert [x][..1] == [x];
    assert [x][1..] == [];
  }

  /** Position of the first `c` in `s`. */
  function IndexOf(s: string, c: char): (i: nat)
    requires c in s
    ensures i < |s| && s[i] == c && c !in s[..i]
    decreases |s|
  {
    if s[0] == c then 0 else 1 + IndexOf(s[1..], c)
  }

  /** Python's `s.split(sep)`: the pieces between separators, empty pieces included. */
  function Split(s: string, sep: char): seq<string>
    decreases |s|
  {
    if sep !in s then [s]
    else
      var i := IndexOf(s, sep);
      [s[..i]] + Split(s[i + 1..], sep)
  }

  /** A split has one piece more than there are separators. */
  lemma {:induction false} SplitLength(s: string, sep: char)
    ensures |Split(s, sep)| == Count(s, sep) + 1
    decreases |s|
  {
    if sep in s {
      var i := IndexOf(s, sep);
      SplitLength(s[i + 1..], sep);
      CountAtFirst(s, sep, i);
    }
  }

  /** No piece of a split holds the separator. */
  lemma {:induction false} SplitPiecesFree(s: string, sep: char)
    ensures forall i :: 0 <= i < |Split(s, sep)| ==> sep !in Split(s, sep)[i]
    decreases |s|
  {
    if sep in s {
      var i := IndexOf(s, sep);
      SplitPiecesFree(s[i + 1..], sep);
      var parts, rest := Split(s, sep), Split(s[i + 1..], sep);
      assert forall k :: 1 <= k < |parts| ==> parts[k] == rest[k - 1];
    }
  }

  /** Counting from the first occurrence of `c`: it and whatever follows. */
  lemma CountAtFirst(s: string, c: char, i: nat)
    requires i < |s| && s[i] == c && c !in s[..i]
    ensures Count(s, c) == 1 + Count(s[i + 1..], c)
  {
    assert s == s[..i] + [c] + s[i + 1..];
    CountAppend(s[..i] + [c], s[i + 1..], c);
    CountAppend(s[..i], [c], c);
  }

  /** Python's `sep.join(parts)`, for a non-empty list. */
  function Join(parts: seq<string>, sep: char): string
    requires |parts| >= 1
    decreases |parts|
  {
    if |parts| == 1 then parts[0] else parts[0] + [sep] + Join(parts[1..], sep)
  }

  /** Joining the pieces of a split with the same separator gives the text back. */
  lemma {:induction false} JoinSplit(s: string, sep: char)
    ensures Join(Split(s, sep), sep) == s
    decreases |s|
  {
    if sep in s {
      var i := IndexOf(s, sep);
      JoinSplit(s[i + 1..], sep);
      var parts := Split(s, sep);
      assert parts[1..] == Split(s[i + 1..], sep);
      assert s == s[..i] + [sep] + s[i + 1..];
    }
  }

  /** Splitting a join of separator-free pieces gives the pieces back. */
  lemma {:induction false} SplitJoin(parts: seq<string>, sep: char)
    requires |parts| >= 1
    requires forall i :: 0 <= i < |parts| ==> sep !in parts[i]
    ensures Split(Join(parts, sep), sep) == parts
    decreases |parts|
  {
    if |parts| > 1 {
      SplitJoin(parts[1..], sep);
      SplitCons(parts[0], Join(parts[1..], sep), sep);
      assert [parts[0]] + parts[1..] == parts;
    }
  }

  /** A separator-free head splits off as the first piece. */
  lemma SplitCons(head: string, rest: string, sep: char)
    requires sep !in head
    ensures Split(head + [sep] + rest, sep) == [head] + Split(rest, sep)
  {
    var s := head + [sep] + rest;
    var i := |head|;
    assert s[..i] == head;
    assert IndexOf(s, sep) == i by {
      IndexOfFirst(s, sep, i);
    }
    assert s[i + 1..] == rest;
  }

  /** The first occurrence is the one with no earlier occurrence. */
  lemma {:induction false} IndexOfFirst(s: string, c: char, i: nat)
    requires i < |s| && s[i] == c && c !in s[..i]
    ensures IndexOf(s, c) == i
    decreases |s|
  {
    if s[0] != c {
      assert s[1..][..i - 1] == s[..i][1..];
      IndexOfFirst(s[1..], c, i - 1);
    }
  }

  /** Appending one piece to a join. */
  lemma {:induction false} JoinSnoc(parts: seq<string>, x: string, sep: char)
    requires |parts| >= 1
    ensures Join(parts + [x], sep) == Join(parts, sep) + [sep] + x
    decreases |parts|
  {
    if |parts| > 1 {
      JoinSnoc(parts[1..], x, sep);
      assert (parts + [x])[1..] == parts[1..] + [x];
    } else {
      assert (parts + [x])[1..] == [x];
    }
  }

  /** The characters Python's `str.isspace()` accepts, which `str.strip()` removes. */
  predicate IsSpace(c: char) {
    || c == ' '
    || ('\t' <= c <= '\r')
    || ('\U{1C}' <= c <= '\U{1F}')
    || c == '\U{85}' || c == '\U{A0}' || c == '\U{1680}'
    || ('\U{2000}' <= c <= '\U{200A}')
    || c == '\U{2028}' || c == '\U{2029}' || c == '\U{202F}' || c == '\U{205F}' || c == '\U{3000}'
  }

  predicate AllSpace(s: string) {
    forall i :: 0 <= i < |s| ==> IsSpace(s[i])
  }

  /** Python's `s.lstrip()`: the longest suffix of `s` that starts with a non-space. */
  function StripStart(s: string): (r: string)
    ensures |r| <= |s|
    ensures r == [] || !IsSpace(r[0])
    decreases |s|
  {
    if |s| > 0 && IsSpace(s[0]) then StripStart(s[1..]) else s
  }

  /** `lstrip` keeps a suffix and cuts off only whitespace. */
  lemma {:induction false} StripStartCuts(s: string)
    ensures var r := StripStart(s);
            r == s[|s| - |r|..] && AllSpace(s[..|s| - |r|])
    decreases |s|
  {
    if |s| > 0 && IsSpace(s[0]) {
      StripStartCuts(s[1..]);
      var r := StripStart(s);
      assert s[1..][|s| - 1 - |r|..] == s[|s| - |r|..];
      assert forall i :: 1 <= i < |s| - |r| ==> s[i] == s[1..][..|s| - 1 - |r|][i - 1];
    }
  }

  /** Python's `s.rstrip()`: the longest prefix of `s` that ends with a non-space. */
  function StripEnd(s: string): (r: string)
    ensures |r| <= |s|
    ensures r == [] || !IsSpace(r[|r| - 1])
    decreases |s|
  {
    if |s| > 0 && IsSpace(s[|s| - 1]) then StripEnd(s[..|s| - 1]) else s
  }

  /** `rstrip` keeps a prefix and cuts off only whitespace. */
  lemma {:induction false} StripEndCuts(s: string)
    ensures var r := StripEnd(s);
            r == s[..|r|] && AllSpace(s[|r|..])
    decreases |s|
  {
    if |s| > 0 && IsSpace(s[|s| - 1]) {
      StripEndCuts(s[..|s| - 1]);
      var r := StripEnd(s);
      assert s[..|s| - 1][..|r|] == s[..|r|];
      assert forall i :: |r| <= i < |s| - 1 ==> s[i] == s[..|s| - 1][|r|..][i - |r|];
    }
  }

  /** Python's `s.strip()`. */
  function Strip(s: string): (r: string)
    ensures |r| <= |s|
  {
    StripEnd(StripStart(s))
  }

  /** A stripped text neither starts nor ends with whitespace. */
  lemma StripEnds(s: string)
    ensures var r := Strip(s);
            r == [] || (!IsSpace(r[0]) && !IsSpace(r[|r| - 1]))
  {
    StripEndCuts(StripStart(s));
  }

  /**
   What `strip` removes: the result is a slice of the input, everything cut off
   on either side is whitespace, and the result neither starts nor ends with whitespace.
   */
  lemma StripIsTrimmedSlice(s: string)
    ensures exists i :: 0 <= i <= i + |Strip(s)| <= |s|
                        && Strip(s) == s[i..i + |Strip(s)|]
                        && AllSpace(s[..i]) && AllSpace(s[i + |Strip(s)|..])
  {
    var t := StripStart(s);
    var r := StripEnd(t);
    StripStartCuts(s);
    StripEndCuts(t);
    var i := |s| - |t|;
    assert r == s[i..i + |r|];
    assert s[i + |r|..] == t[|r|..];
  }

  /** A text that neither starts nor ends with whitespace is its own strip. */
  lemma StripTrimmed(s: string)
    requires s == [] || (!IsSpace(s[0]) && !IsSpace(s[|s| - 1]))
    ensures Strip(s) == s
  {
  }

  /** Stripping twice is stripping once. */
  lemma StripIdempotent(s: string)
    ensures Strip(Strip(s)) == Strip(s)
  {
    StripEnds(s);
    StripTrimmed(Strip(s));
  }

  /** A text made only of whitespace strips to the empty text. */
  lemma {:induction false} StripAllSpace(s: string)
    requires AllSpace(s)
    ensures Strip(s) == ""
  {
    StripStartCuts(s);
    var t := StripStart(s);
    if t != [] {
      assert false;
    }
  }
}

=== FILE: wrappers.dfy ===
/** Optional values and call outcomes shared by the favorites store and the metadata serialiser. */
module Wrappers {

  /** A value that may be missing: Python's `None` versus a present value. */
  datatype Option<+T> = None | Some(value: T) {

    /** The wrapped value, or `default` when there is none (Python's `dict.get(key, default)`). */
    function GetOr(default: T): T {
      match this
      case Some(v) => v
      case None => default
    }
  }

  /** Either a returned value or the exception a call raised. */
  datatype Result<+T, +E> = Success(value: T) | Failure(error: E)
}
